=== FILE: README.md ===
# Task-run orchestration and experimental-feature gating

This project models two parts of a workflow-orchestration engine in Dafny, and
proves properties of the model.

**Task-run orchestration.** A task called inside a flow run does the following:

- It resolves any future-valued arguments to the data of the runs they refer to.
- It binds its positional, keyword and default arguments into one mapping in
  signature order.
- It takes the next dynamic key ("0", "1", ...) for that task in that flow run.
- It creates a run that starts Pending.
- If the call's cache key is already stored, the run is served as Cached.
  Otherwise the body runs under the task's retry policy. The run passes
  through Running, then Awaiting Retry and Running for each retry, and ends
  Completed or Failed. One delay call is made before each retry.
- A Completed result is stored under the call's cache key.
- A call outside any flow run fails before any run is created.

Every run's history follows one state machine (module `States`). The run
record store is a map from run id to run.

**Experimental-feature gating.** A feature marked experimental belongs to a
group. The group has two settings:

- a warn setting, `PREFECT_EXPERIMENTAL_WARN_<GROUP>`;
- optionally, an opt-in setting, `PREFECT_EXPERIMENTAL_ENABLE_<GROUP>`.

Marking a feature fails with a configuration error when a setting it needs is
missing. Each later use of the feature is gated:

- An opt-in feature whose group is not enabled is refused.
- Otherwise the use goes ahead. It warns unless the global warn switch or the
  group's warn setting is off.
- A marked parameter is gated only when the caller passes it explicitly and its
  `when` predicate holds for the passed value.
- `experiment_enabled` reads a group's opt-in setting.

The warning and refusal texts are modelled word for word.

Modules:

- `Results`: Option and Result.
- `Values`: runtime values, `str(n)`, and the canonical argument rendering.
- `States`: the run state machine.
- `Binding`: argument binding.
- `Retries`: the retry loop.
- `Cache`: the cache-key resolver and store.
- `Orchestration`: the engine, flow runs, futures, and sequences of calls.
- `Experimental`: feature gating.
- `Scenarios`: the concrete cases the tests assert, each derived from the
  general lemmas.

## Model

| member | source | states |
|---|---|---|
| States.Transition | tests/unit_tests/test_tasks.py:130-143 | appends exactly the given state to a history; refuses, with an invalid-transition error naming both states, a run that is already terminal or an edge outside the state table |
| States.TransitionKeepsValid | tests/unit_tests/test_tasks.py:130-143 | on a valid history, a transition succeeds if and only if the extended history is still one the state machine accepts |
| States.TerminalIsLast | tests/unit_tests/test_tasks.py:133-143 | a terminal state (Completed, Failed, Cached) can only be the last entry of a valid history |
| States.RetryHistoryValid | tests/unit_tests/test_tasks.py:133-143 | Pending, Running, (Awaiting Retry, Running) x (k-1), then Completed or Failed, is a valid finished history of 2k+1 entries |
| States.FinishedHistoryShape | tests/unit_tests/test_tasks.py:130-177 | every finished valid history is either Pending then Cached, or exactly the retry history of some k attempts ending in Completed or Failed |
| States.NamesDistinguishKinds | tests/unit_tests/test_tasks.py:132-143 | two states with the same display name are of the same kind |
| Retries.Settle | tests/unit_tests/test_tasks.py:119-128 | an attempt that returned ends the run Completed with the returned value; one that raised ends it Failed carrying that very error |
| Retries.Delay | tests/unit_tests/test_tasks.py:179-203 | a delay call never exceeds the configured delay, and together with the time already elapsed it makes up the whole configured delay |
| Retries.LastAttempt | tests/unit_tests/test_tasks.py:96-110 | the attempt that ends the loop is the first that returned, or the last one allowed; every earlier attempt raised |
| Retries.Drive | tests/unit_tests/test_tasks.py:96-143 | one turn of the retry loop adds to the history, keeps its first two entries, makes at least one and at most the remaining allowed body calls, logs one delay call per retry, and ends in a terminal state that is not Cached |
| Retries.Execute | tests/unit_tests/test_tasks.py:96-143 | the retry loop starts Pending then Running, calls the body between 1 and N+1 times with one delay call per retry, and leaves a finished history not served from the cache |
| Retries.ExecuteShape | tests/unit_tests/test_tasks.py:95-177 | closed form of the retry loop: the body is called k times, the history is the retry history of k attempts ending as attempt k-1 settled, and delay call j precedes retry j+1 |
| Retries.ExecuteValid | tests/unit_tests/test_tasks.py:130-143 | the retry loop always leaves a valid finished history that was not served from the cache |
| Retries.SucceedsOnAttempt | tests/unit_tests/test_tasks.py:145-177 | a body that first returns on attempt k within N+1 attempts is called exactly k times and the run ends Completed with its value after k-1 retries |
| Retries.ExhaustsRetries | tests/unit_tests/test_tasks.py:96-143 | a body that always raises is called N+1 times; the run ends Failed with the last error and its history is 2N+3 states long, with N delay calls |
| Retries.DelaysPerRetry | tests/unit_tests/test_tasks.py:179-203 | exactly one delay call per retry, none longer than the configured delay, each exactly the delay when no time has elapsed |
| Values.Digits | tests/unit_tests/test_tasks.py:56-75 | the dynamic key of the n-th call is a text of decimal digits that reads back, in positional notation, as n, with no leading zero |
| Values.DigitsOfDecimalValue | tests/unit_tests/test_tasks.py:56-75 | every digit text without a leading zero is the dynamic key of the number it denotes, so keys and call numbers correspond one to one |
| Values.DigitsInjective | tests/unit_tests/test_tasks.py:56-75 | different call numbers get different dynamic keys |
| Values.RenderInjective | tests/unit_tests/test_tasks.py:322-345 | the text of a bound argument mapping determines the mapping: different mappings render differently |
| Values.InputHashInjective | tests/unit_tests/test_tasks.py:348-382 | two calls share an input-hash cache key only if they call the same task with the same bound arguments |
| Binding.Bind | tests/unit_tests/test_tasks.py:322-345 | a call binds exactly when no parameter is missing, repeated or unknown and there are not too many positional arguments; parameter i is then bound to its positional, else keyword, else default value, in signature order |
| Binding.KeywordStyleBindsAlike | tests/unit_tests/test_tasks.py:322-345 | passing every bound argument by keyword, in any order, binds to the same mapping |
| Binding.PositionalStyleBindsAlike | tests/unit_tests/test_tasks.py:322-345 | passing every bound argument positionally binds to the same mapping |
| Binding.CallStyleIndependent | tests/unit_tests/test_tasks.py:322-345 | two calls bind to the same mapping if and only if they supply every parameter the same value |
| Cache.KeyFor | tests/unit_tests/test_tasks.py:218-382 | a call has no cache key exactly when its task has no cache-key policy; otherwise the key is what the task's key function returns for the run context and bound arguments, or the input hash of the task name and bound arguments |
| Cache.Lookup | tests/unit_tests/test_tasks.py:233-246 | a call is served from the store exactly when it has a key that is stored, and then with the stored value |
| Cache.Record | tests/unit_tests/test_tasks.py:233-296 | only a Completed run with a key changes the store, by storing its data under its key; every other entry is kept |
| Orchestration.StartFlow | tests/unit_tests/test_tasks.py:22-35 | a flow run gets a fresh id and starts Pending then Running; the store, the counters and the delay log are unchanged and the engine stays valid |
| Orchestration.FinishFlow | tests/unit_tests/test_tasks.py:44-54 | ending a flow run succeeds exactly when the state machine accepts the state its body settled to, and then appends that state; otherwise it is refused with the state machine's error, and an unknown flow run is refused; every other run, the store, the counters and the delay log are untouched |
| Orchestration.FlowEndsOnce | tests/unit_tests/test_tasks.py:44-54 | ending a flow run keeps the engine valid, and a second ending is refused as an invalid transition from the first terminal state |
| Orchestration.Wait | tests/unit_tests/test_tasks.py:32-35 | a future resolves if and only if its run exists and has finished, and then to the run's terminal state |
| Orchestration.ResolveValue | tests/unit_tests/test_tasks.py:77-92 | a future argument is replaced by the data of its run's terminal state, and fails when that run has not finished; any other value passes unchanged |
| Orchestration.ResolveAll | tests/unit_tests/test_tasks.py:77-92 | a sequence of arguments resolves if and only if every element does, element by element |
| Orchestration.ResolveCall | tests/unit_tests/test_tasks.py:77-92 | a call resolves if and only if every positional and every keyword argument resolves; each is then replaced by its resolved value, keeping positions and keyword names; otherwise the call fails with the unresolved-future error |
| Orchestration.CallTask | tests/unit_tests/test_tasks.py:11-20 | a call outside a flow run fails with the outside-flow error and creates no run; inside one, an unresolved future and a binding error are reported as such, and otherwise the call is launched in its flow run with the bound arguments, creating exactly one run under a fresh id |
| Orchestration.Launch | tests/unit_tests/test_tasks.py:56-75 | a launch adds one task run of this task in this flow run under a fresh id, starting Pending and finished, whose dynamic key is the task's counter in that flow run; every other run is kept, and only that one counter changes, advancing by one |
| Orchestration.LaunchRecordsRun | tests/unit_tests/test_tasks.py:56-75 | a launch adds one run under a fresh id and keeps every other run; the run's dynamic key is the task's counter in its flow run, which alone advances by one; the engine stays valid |
| Orchestration.LaunchServesFromCache | tests/unit_tests/test_tasks.py:233-246 | a cache hit goes straight from Pending to Cached with the stored value, never calls the body, and changes neither the store nor the delay log |
| Orchestration.LaunchExecutesOnMiss | tests/unit_tests/test_tasks.py:95-143 | a miss runs the retry loop: the run's history and call count are the loop's, its delay calls are logged, and the store gains the result only when the run ends Completed with a key |
| Orchestration.LaunchEndsAsBodyDid | tests/unit_tests/test_tasks.py:37-54 | without retries a run ends Completed with the returned value, or Failed carrying exactly the raised error |
| Orchestration.LaunchCompletesFirstTime | tests/unit_tests/test_tasks.py:233-246 | a miss whose body returns at once completes with that value and stores it under the call's key |
| Orchestration.LaunchedFutureResolves | tests/unit_tests/test_tasks.py:22-35 | the future of every launched call resolves to the run's terminal state |
| Orchestration.CallStyleIrrelevant | tests/unit_tests/test_tasks.py:322-345 | two calls whose resolved arguments bind to the same mapping behave identically, down to cache key, runs and store |
| Orchestration.FutureArgumentResolved | tests/unit_tests/test_tasks.py:77-92 | a future argument of a finished run is replaced by that run's data; a future of a missing or unfinished run stops the call |
| Orchestration.LaunchAll | tests/unit_tests/test_tasks.py:248-261 | a sequence of calls yields one future per call and issues exactly that many new run ids, leaving the engine valid |
| Orchestration.LaunchAllFrame | tests/unit_tests/test_tasks.py:248-261 | the futures of a sequence of calls name new runs in call order, and every run that existed before is kept unchanged |
| Orchestration.DynamicKeysInOrder | tests/unit_tests/test_tasks.py:56-75 | successive calls of a task in one flow run get dynamic keys n, n+1, ... in call order, starting from the task's counter |
| Orchestration.StoredKeyAlwaysHits | tests/unit_tests/test_tasks.py:248-261 | once a key is stored, every call keyed by it, in any flow run, is Cached with the stored value without calling the body, and the store does not change |
| Orchestration.FirstCompletesThenCached | tests/unit_tests/test_tasks.py:233-320 | with a key that is the same for every call, within one flow run or across flow runs, the first call ends Completed and every later call is Cached with the same data |
| Orchestration.NoCacheNeverHits | tests/unit_tests/test_tasks.py:218-231 | without a cache-key policy every call executes its body, none is Cached, and the store never changes |
| Orchestration.FreshKeysNeverHit | tests/unit_tests/test_tasks.py:278-296 | a key function that never repeats a key defeats the cache: every call executes its body and none is Cached |
| Orchestration.InputHashHitsOnlyEqualInputs | tests/unit_tests/test_tasks.py:348-364 | with the input hash, a call hits the stored entry if and only if its bound arguments equal those that stored it |
| Orchestration.InputHashSequence | tests/unit_tests/test_tasks.py:348-382 | with the input hash, calls with inputs a, then b different from a, then a again leave runs that ended Completed, Completed, then Cached with the first result, whatever flow runs they are in |
| Orchestration.InputHashFirst | tests/unit_tests/test_tasks.py:348-364 | with the input hash and an empty store, a first call completes and its result becomes the only stored entry, under its input's key |
| Orchestration.InputHashAfterFirst | tests/unit_tests/test_tasks.py:348-382 | once input a is stored, a call with a different input b completes, and a following call with a is Cached with a's result |
| Experimental.Upper | tests/_internal/compatibility/test_experimental.py:279-297 | a group name is upper-cased letter by letter, keeping its length |
| Experimental.UpperIdempotent | tests/_internal/compatibility/test_experimental.py:279-285 | a group spelled in upper case names the same settings as its lower-case spelling |
| Experimental.SettingNamesDistinct | tests/_internal/compatibility/test_experimental.py:20-77 | a group's warn and opt-in settings never share a name, and two groups share a setting exactly when their names agree once upper-cased |
| Experimental.HelpPart | tests/_internal/compatibility/test_experimental.py:209-224 | a missing help text contributes nothing to a message; a given help appears followed by one space |
| Experimental.WarningMessage | tests/_internal/compatibility/test_experimental.py:80-113 | a warning is the feature's "is experimental" sentence, then the help part and the caution about changing behaviour, then the sentence naming the group's warn setting |
| Experimental.DisabledMessage | tests/_internal/compatibility/test_experimental.py:245-260 | a refusal is the feature's "requires opt-in" sentence, then the help part, then the sentence naming the group's enable setting |
| Experimental.MissingSettingMessage | tests/_internal/compatibility/test_experimental.py:287-330 | a configuration error names the kind of setting and the group as given, then names the missing setting and says it must be created |
| Experimental.MissingKindsDiffer | tests/_internal/compatibility/test_experimental.py:300-330 | a missing warn setting and a missing opt-in setting are never reported with the same text |
| Experimental.WarningMessageShape | tests/_internal/compatibility/test_experimental.py:80-113 | a warning starts with the feature's sentence, holds help text only when help is given, ends by naming the group's warn setting, and determines its help |
| Experimental.DisabledMessageShape | tests/_internal/compatibility/test_experimental.py:245-260 | a refusal starts with the feature's opt-in sentence, holds help only when given, ends by naming the group's enable setting, and determines its help |
| Experimental.Mark | tests/_internal/compatibility/test_experimental.py:300-330 | marking succeeds if and only if the settings the marker needs exist; a missing opt-in setting is reported before a missing warn setting, each with its own text |
| Experimental.Check | tests/_internal/compatibility/test_experimental.py:227-276 | a use is refused if and only if the feature needs opt-in and its group is not enabled, with the refusal text; otherwise it warns if and only if both warn switches are on, with the warning text |
| Experimental.WarnSwitchesSilence | tests/_internal/compatibility/test_experimental.py:227-242 | turning off the global or the group warn setting silences every use, and never changes whether a use is refused |
| Experimental.OptInEnabledActsAsPlain | tests/_internal/compatibility/test_experimental.py:263-276 | an opt-in feature whose group is enabled behaves exactly like the same feature without opt-in, warning included |
| Experimental.ExperimentEnabled | tests/_internal/compatibility/test_experimental.py:279-297 | a group is reported with the value of its opt-in setting; it is a configuration error exactly when the group has no opt-in setting, with the missing-setting text naming the group as given and the setting |
| Experimental.ExperimentEnabledAgreesWithGate | tests/_internal/compatibility/test_experimental.py:279-297 | a group is reported enabled if and only if an opt-in feature of that group is let through, and an unknown group fails marking with the same error |
| Experimental.MarkParameter | tests/_internal/compatibility/test_experimental.py:116-177 | marking a parameter succeeds exactly when the settings its feature needs exist, and fails with the feature's marking error otherwise; the marker carries the given group, help and opt-in, a feature text naming the parameter, and the given `when`, or one that holds for every value |
| Experimental.MarkedParameterGates | tests/_internal/compatibility/test_experimental.py:116-177 | a marked parameter is gated like its feature exactly when the caller passes it with a value its `when` accepts (any value without `when`), and goes through silently otherwise |
| Experimental.ExplicitValue | tests/_internal/compatibility/test_experimental.py:116-177 | a parameter counts as passed exactly when it is given by keyword or its signature position is covered by a positional argument; the value seen is the keyword value, else that positional argument |
| Experimental.CheckParameter | tests/_internal/compatibility/test_experimental.py:116-177 | a parameter left to its default, or passed with a value `when` rejects, goes through silently; otherwise the use is gated like the feature itself |
| Experimental.ParameterWarnsIff | tests/_internal/compatibility/test_experimental.py:138-177 | a marked parameter without opt-in warns if and only if it is passed explicitly, `when` holds for the passed value, and warnings are on |
| Experimental.ExplicitValueIsBound | tests/_internal/compatibility/test_experimental.py:150-177 | the value `when` inspects is the value the function is bound to; a parameter left out is bound to its default |
| Experimental.InvokeParameter | tests/_internal/compatibility/test_experimental.py:180-206 | a call the gate refuses fails with the gate's refusal text; a call the gate lets through binds exactly as the unmarked function would, carrying the gate's warning, or fails with that function's own binding error |
| Experimental.UnpassedParameterIsTransparent | tests/_internal/compatibility/test_experimental.py:194-206 | a call that does not pass the marked parameter binds, or keeps its binding error, exactly as the unmarked function would, without a warning |
| Scenarios.OutsideFlowFails | tests/unit_tests/test_tasks.py:12-20 | a task called outside a flow run fails |
| Scenarios.DynamicKeysZeroAndOne | tests/unit_tests/test_tasks.py:56-75 | two calls of one task in a fresh flow run get dynamic keys "0" and "1" |
| Scenarios.CallFoo | tests/unit_tests/test_tasks.py:77-92 | `foo(1)` inside a flow run completes with 1 and leaves the engine valid |
| Scenarios.CallBar | tests/unit_tests/test_tasks.py:77-92 | `bar`, given the future of a run that completed with 1, receives 1 and completes with 2 |
| Scenarios.ChainedCall | tests/unit_tests/test_tasks.py:77-92 | `bar(foo(1))`, with bar adding one, completes with 2 |
| Scenarios.ThreeRetriesExhausted | tests/unit_tests/test_tasks.py:96-143 | with retries = 3 and a body that always raises, the body is called 4 times and the stored history reads the nine names the test lists, ending in Failed |
| Scenarios.SucceedsOnFourthAttempt | tests/unit_tests/test_tasks.py:96-143 | with retries = 3 and a body that raises three times and then returns (the case where the test does not always fail), the body is called 4 times and the stored history reads the nine names the test lists, ending in Completed, which carries the returned value |
| Scenarios.SucceedsOnSecondAttempt | tests/unit_tests/test_tasks.py:145-177 | a body that raises once and then returns is called twice; the history reads Pending, Running, Awaiting Retry, Running, Completed |
| Scenarios.SingleRetryDelay | tests/unit_tests/test_tasks.py:179-214 | with retries = 1, a 43-second delay and a body that raises once then returns, the body is called twice, one delay call is made of at most 43 seconds, strictly between 40 and 43 when more than zero and less than three seconds have passed, and the history reads Pending, Running, Awaiting Retry, Running, Completed |
| Scenarios.ThreeCallStyles | tests/unit_tests/test_tasks.py:322-345 | `f(1, 2, 3)`, `f(1, b=2)` with default c=3, and `f(c=3, a=1, b=2)` all bind to a=1, b=2, c=3 |
| Scenarios.TestGroupNames | tests/_internal/compatibility/test_experimental.py:20-77 | the TEST group's settings are PREFECT_EXPERIMENTAL_WARN_TEST and PREFECT_EXPERIMENTAL_ENABLE_TEST, also when the group is spelled "test" |
| Scenarios.WarningText | tests/_internal/compatibility/test_experimental.py:80-113 | the warning for a marked function with help is the text the test expects |
| Scenarios.WarningTextWithoutHelp | tests/_internal/compatibility/test_experimental.py:209-224 | the warning for a marked function without help is the text the test expects |
| Scenarios.DisabledText | tests/_internal/compatibility/test_experimental.py:245-260 | an opt-in function whose group is not enabled is refused with the text the test expects |
| Scenarios.ExperimentEnabledCases | tests/_internal/compatibility/test_experimental.py:279-297 | "test" reads true or false from its opt-in setting; "foo" is refused with the missing opt-in setting text |
| Scenarios.UnknownGroupMarking | tests/_internal/compatibility/test_experimental.py:300-330 | marking in a group with no settings reports the missing warn setting, or the missing opt-in setting when opt-in is requested |
| Scenarios.ReturnValuePassed | tests/_internal/compatibility/test_experimental.py:116-160 | `return_value` counts as passed when given by keyword or by position, with the value given, and not when left to its default |
| Scenarios.ParameterGateCases | tests/_internal/compatibility/test_experimental.py:116-160 | the marked parameter warns when passed by keyword or by position, and never when left to its default |
| Scenarios.ParameterWhenCases | tests/_internal/compatibility/test_experimental.py:163-177 | with `when` accepting only 3, the parameter is silent when left out or passed 2, and warns when passed 3 |
| Scenarios.OptInParameterRefused | tests/_internal/compatibility/test_experimental.py:180-191 | an opt-in parameter passed while its group is not enabled is refused as a disabled feature, with the refusal text naming the parameter |
| Scenarios.BadCallKeepsBindingError | tests/_internal/compatibility/test_experimental.py:194-206 | a call with an unknown keyword goes through the gate and fails with its own unexpected-keyword error |
| Scenarios.ParameterWarningText | tests/_internal/compatibility/test_experimental.py:116-135 | the warning for a marked parameter names the parameter and is the text the test expects |

## Left out

- The command-line agent and server start-up (`tests/cli/`) are not part of this model.
- The run record store is a map inside the engine. The API client and its persistence, serialisation and network access are not modelled.
- Wall-clock time is an injected function of the retry index, in whole seconds. Floating-point durations and rounding are not modelled.
- Retries.Delay: the delay call's length is the configured delay less the injected elapsed time. The test allows a three-second window; the model states the exact relation.
- Scenarios.SingleRetryDelay: elapsed time is counted in whole seconds, so nothing guarantees that some time has passed before the delay is computed; the test's strict lower bound of 40 seconds relies on real time having moved, and the lemma takes a positive elapsed time as a hypothesis for that bound.
- Orchestration.Wait: waiting on a run that has not finished is an error (NotFinished) rather than a block; with task calls run one after another, such a wait would never return.
- Orchestration.ResolveValue: likewise, a future argument whose run has not finished makes the call fail with the unresolved-future error instead of waiting for it.
- Orchestration.CallTask: any flow context is accepted; the model does not check that the context's flow run exists and is still running. A context is only handed to code running inside a flow.
- The Python warnings machinery, decorators, class wrapping and monkeypatched settings are not modelled. A use's warning is returned as a value, and settings are a map from name to boolean.
- Binding.Bind: the error is one of four kinds. Python's exact TypeError text, and which error wins when several apply, are not modelled.
- Values.InputHash: the built-in input hash is modelled as an injective rendering of the task name and the bound arguments. A real hash function can collide; the model assumes it does not.
- Values.Render: `str(args)` is modelled as a length-prefixed rendering. Its exact Python text is not modelled; the model relies only on injectivity.
- Cache.KeyFor: a cache-key function always returns a key. A key function that returns None, which turns caching off for that one call, is not modelled; every key function the tests use returns a string.
- Orchestration.FreshKeysNeverHit: the test's key function counts its own calls. The model stands for it with a key function whose keys never repeat across task-run ids. The context carries a fresh id per call.
- Experimental.Upper: upper-casing is ASCII only. Unicode case mapping is not modelled.
- Experimental.InvokeParameter: when the gate refuses and binding would also fail, the model reports the refusal. The tests do not fix this order.
- Concurrency, asynchronous execution and parallel task runs are not modelled. Calls run one after another.
- Task bodies are given by their outcome on each attempt. Arbitrary Python code and side effects other than raising or returning are not modelled.

=== FILE: binding.dfy ===
/**
 Argument binding: positional, keyword and default arguments of a call are
 bound into one parameter mapping in signature order, so that the mapping,
 and every cache key computed from it, does not depend on the calling style.
 */
module Binding {
  import opened Results
  import opened Values

  /** A parameter and its default value, if it has one. */
  datatype Param = Param(name: string, default: Option<Value>)

  type Signature = seq<Param>

  /** The arguments of one call as written by the caller. */
  datatype Call = Call(positional: seq<Value>, keywords: map<string, Value>)

  datatype BindError =
    | TooManyPositional(given: nat, accepted: nat)
    | UnexpectedKeywords(names: set<string>)
    | MultipleValues(name: string)
    | MissingArgument(name: string)

  function Names(sig: Signature): set<string> {
    set i | 0 <= i < |sig| :: sig[i].name
  }

  /** Parameter names of a function are distinct. */
  predicate DistinctNames(sig: Signature) {
    forall i, j :: 0 <= i < j < |sig| ==> sig[i].name != sig[j].name
  }

  /** Parameter `i` receives exactly one value: a positional argument that no
      keyword repeats, or a keyword argument, or its default. */
  predicate ParamBindable(sig: Signature, call: Call, i: nat)
    requires i < |sig|
  {
    if i < |call.positional| then sig[i].name !in call.keywords
    else sig[i].name in call.keywords || sig[i].default.Some?
  }

  /** The value parameter `i` receives. */
  function Supplied(sig: Signature, call: Call, i: nat): Value
    requires i < |sig| && ParamBindable(sig, call, i)
  {
    if i < |call.positional| then call.positional[i]
    else if sig[i].name in call.keywords then call.keywords[sig[i].name]
    else sig[i].default.value
  }

  /** The conditions under which a call binds. */
  predicate Bindable(sig: Signature, call: Call) {
    && |call.positional| <= |sig|
    && call.keywords.Keys <= Names(sig)
    && forall i :: 0 <= i < |sig| ==> ParamBindable(sig, call, i)
  }

  function BindFrom(sig: Signature, call: Call, i: nat): (r: Result<Arguments, BindError>)
    requires i <= |sig|
    ensures r.Ok? <==> forall j :: i <= j < |sig| ==> ParamBindable(sig, call, j)
    ensures r.Ok? ==> |r.value| == |sig| - i
    ensures r.Ok? ==> forall j :: i <= j < |sig| ==>
      r.value[j - i] == (sig[j].name, Supplied(sig, call, j))
    decreases |sig| - i
  {
    if i == |sig| then Ok([])
    else
      var p := sig[i];
      if i < |call.positional| && p.name in call.keywords then
        assert !ParamBindable(sig, call, i);
        Err(MultipleValues(p.name))
      else if i >= |call.positional| && p.name !in call.keywords && p.default.None? then
        assert !ParamBindable(sig, call, i);
        Err(MissingArgument(p.name))
      else
        var rest := BindFrom(sig, call, i + 1);
        if rest.Err? then rest
        else Ok([(p.name, Supplied(sig, call, i))] + rest.value)
  }

  /** Binds a call to a signature. The call binds exactly when it is
      `Bindable`; then parameter i is bound, in signature order, to its
      positional argument, else its keyword argument, else its default. */
  function Bind(sig: Signature, call: Call): (r: Result<Arguments, BindError>)
    ensures r.Ok? <==> Bindable(sig, call)
    ensures r.Ok? ==> |r.value| == |sig|
    ensures r.Ok? ==> forall i :: 0 <= i < |sig| ==>
      r.value[i] == (sig[i].name, Supplied(sig, call, i))
  {
    if |call.positional| > |sig| then Err(TooManyPositional(|call.positional|, |sig|))
    else if !(call.keywords.Keys <= Names(sig)) then UnexpectedKeywordsError(sig, call)
    else BindFrom(sig, call, 0)
  }

  function UnexpectedKeywordsError(sig: Signature, call: Call): Result<Arguments, BindError> {
    Err(UnexpectedKeywords(call.keywords.Keys - Names(sig)))
  }

  /** The values of a bound mapping, in order. */
  function ValuesOf(m: Arguments): (vs: seq<Value>)
    ensures |vs| == |m|
    ensures forall i :: 0 <= i < |m| ==> vs[i] == m[i].1
  {
    if |m| == 0 then [] else ValuesOf(m[..|m| - 1]) + [m[|m| - 1].1]
  }

  /** No name occurs twice in a bound mapping. */
  predicate DistinctKeys(m: Arguments) {
    forall a, b :: 0 <= a < b < |m| ==> m[a].0 != m[b].0
  }

  /** A bound mapping as keyword arguments. */
  function AsKeywords(m: Arguments): map<string, Value>
    requires DistinctKeys(m)
  {
    map i | 0 <= i < |m| :: m[i].0 := m[i].1
  }

  lemma AsKeywordsAt(m: Arguments, i: nat)
    requires DistinctKeys(m) && i < |m|
    ensures m[i].0 in AsKeywords(m) && AsKeywords(m)[m[i].0] == m[i].1
  {
    assert m[i].0 in AsKeywords(m);
  }

  lemma BoundKeysDistinct(sig: Signature, call: Call)
    requires DistinctNames(sig) && Bind(sig, call).Ok?
    ensures DistinctKeys(Bind(sig, call).value)
  {
  }

  /** Passing every argument by keyword binds to the same mapping:
      `f(c=3, a=1, b=2)` is `f(1, 2, 3)`. */
  lemma KeywordStyleBindsAlike(sig: Signature, call: Call)
    requires DistinctNames(sig)
    requires Bind(sig, call).Ok?
    ensures DistinctKeys(Bind(sig, call).value)
    ensures Bind(sig, Call([], AsKeywords(Bind(sig, call).value))) == Bind(sig, call)
  {
    var m := Bind(sig, call).value;
    BoundKeysDistinct(sig, call);
    KeywordCallBindable(sig, m);
    KeywordCallBindsBack(sig, m);
  }

  /** Binding the mapping's keyword form gives the mapping back. */
  lemma KeywordCallBindsBack(sig: Signature, m: Arguments)
    requires |m| == |sig| && DistinctKeys(m)
    requires forall i :: 0 <= i < |sig| ==> m[i].0 == sig[i].name
    requires Bindable(sig, Call([], AsKeywords(m)))
    requires forall i :: 0 <= i < |sig| ==> Supplied(sig, Call([], AsKeywords(m)), i) == m[i].1
    ensures Bind(sig, Call([], AsKeywords(m))) == Ok(m)
  {
    var r := Bind(sig, Call([], AsKeywords(m))).value;
    assert forall i :: 0 <= i < |sig| ==> r[i] == m[i];
    assert r == m;
  }

  /** A mapping that names the parameters in order binds, as keyword
      arguments, each parameter to its own value. */
  lemma KeywordCallBindable(sig: Signature, m: Arguments)
    requires |m| == |sig| && DistinctKeys(m)
    requires forall i :: 0 <= i < |sig| ==> m[i].0 == sig[i].name
    ensures Bindable(sig, Call([], AsKeywords(m)))
    ensures forall i :: 0 <= i < |sig| ==> Supplied(sig, Call([], AsKeywords(m)), i) == m[i].1
  {
    var kw := AsKeywords(m);
    var kwCall := Call([], kw);
    forall i | 0 <= i < |sig|
      ensures ParamBindable(sig, kwCall, i) && Supplied(sig, kwCall, i) == m[i].1
    {
      AsKeywordsAt(m, i);
    }
    assert kw.Keys <= Names(sig) by {
      forall n | n in kw
        ensures n in Names(sig)
      {
        var i :| 0 <= i < |m| && m[i].0 == n;
        assert sig[i].name == n;
      }
    }
  }

  /** Passing every argument positionally binds to the same mapping:
      `f(1, b=2)` with default `c=3` is `f(1, 2, 3)`. */
  lemma PositionalStyleBindsAlike(sig: Signature, call: Call)
    requires Bind(sig, call).Ok?
    ensures Bind(sig, Call(ValuesOf(Bind(sig, call).value), map[])) == Bind(sig, call)
  {
    var m := Bind(sig, call).value;
    var posCall := Call(ValuesOf(m), map[]);
    assert Bindable(sig, posCall);
    var r := Bind(sig, posCall).value;
    assert forall i :: 0 <= i < |sig| ==> r[i] == m[i];
    assert r == m;
  }

  /** Two calls that bind at all bind to the same mapping exactly when they
      supply every parameter the same value. */
  lemma CallStyleIndependent(sig: Signature, c1: Call, c2: Call)
    requires Bind(sig, c1).Ok? && Bind(sig, c2).Ok?
    ensures Bind(sig, c1) == Bind(sig, c2) <==>
      forall i :: 0 <= i < |sig| ==> Supplied(sig, c1, i) == Supplied(sig, c2, i)
  {
    var m1, m2 := Bind(sig, c1).value, Bind(sig, c2).value;
    if forall i :: 0 <= i < |sig| ==> Supplied(sig, c1, i) == Supplied(sig, c2, i) {
      assert forall i :: 0 <= i < |sig| ==> m1[i] == m2[i];
      assert m1 == m2;
    } else {
      var i :| 0 <= i < |sig| && Supplied(sig, c1, i) != Supplied(sig, c2, i);
      assert m1[i] != m2[i];
    }
  }
}

=== FILE: cache.dfy ===
/**
 The cache resolver.

 A task may carry a cache-key function of the task-run context and the bound
 arguments. A key already in the store short-circuits the run to Cached with
 the stored value; only a run that ends Completed stores its value under its
 key. The store is keyed purely by the key text, so it is shared by every flow
 run of the engine.
 */
module Cache {
  import opened Results
  import opened Values
  import opened States

  /** What a cache-key function sees of the run it keys: the enclosing flow
      run and the task run itself (fresh for every call). */
  datatype TaskRunContext = TaskRunContext(flowRunId: nat, taskRunId: nat)

  /** How a task computes its cache key: not at all, with a user function of
      the context and the bound arguments, or with the built-in input hash. */
  datatype CachePolicy =
    | NoCache
    | KeyFn(f: (TaskRunContext, Arguments) -> string)
    | TaskInputHash

  type Store = map<string, Value>

  /** The cache key of one call, absent when caching is off. */
  function KeyFor(policy: CachePolicy, ctx: TaskRunContext, task: string, args: Arguments): (k: Option<string>)
    ensures k.None? <==> policy.NoCache?
    ensures policy.KeyFn? ==> k == Some(policy.f(ctx, args))
    ensures policy.TaskInputHash? ==> k == Some(InputHash(task, args))
  {
    match policy
    case NoCache => None
    case KeyFn(f) => Some(f(ctx, args))
    case TaskInputHash => Some(InputHash(task, args))
  }

  /** The stored value a call is served from, if any. */
  function Lookup(store: Store, key: Option<string>): (hit: Option<Value>)
    ensures hit.Some? <==> key.Some? && key.value in store
    ensures hit.Some? ==> hit.value == store[key.value]
  {
    if key.Some? && key.value in store then Some(store[key.value]) else None
  }

  /** Stores the data of a Completed run under its key; any other final state,
      or a call without a key, leaves the store as it was. */
  function Record(store: Store, key: Option<string>, final: State): (s: Store)
    ensures store.Keys <= s.Keys
    ensures forall k :: k in store && (key.None? || k != key.value) ==> k in s && s[k] == store[k]
    ensures s != store ==> final.Completed? && key.Some?
    ensures final.Completed? && key.Some? ==> key.value in s && s[key.value] == final.data
    ensures s.Keys <= store.Keys + (if key.Some? then {key.value} else {})
  {
    if final.Completed? && key.Some? then store[key.value := final.data] else store
  }
}

=== FILE: experimental.dfy ===
/**
 Experimental-feature gating.

 A feature belongs to a group. Each group has a warn setting,
 PREFECT_EXPERIMENTAL_WARN_<GROUP>, and may have an opt-in setting,
 PREFECT_EXPERIMENTAL_ENABLE_<GROUP>, where <GROUP> is the group name
 upper-cased. Marking a feature checks, once, that the settings it needs
 exist. Every later use of the feature is gated: an opt-in feature whose group
 is not enabled is refused; otherwise the use goes ahead, with a warning
 unless the global PREFECT_EXPERIMENTAL_WARN or the group's warn setting is
 off. A marked parameter is gated only when the caller passes it explicitly
 and its `when` predicate holds for the passed value.
 */
module Experimental {
  import opened Results
  import opened Values
  import opened Binding

  /** The settings the gate reads: the global warn switch and every
      registered per-group setting, by name. A name absent from `values` has
      not been created. */
  datatype Settings = Settings(warn: bool, values: map<string, bool>)

  function UpperChar(c: char): char {
    if 'a' <= c <= 'z' then (c as int - 32) as char else c
  }

  /** ASCII upper-casing of a group name. */
  function Upper(s: string): (u: string)
    ensures |u| == |s|
    ensures forall i :: 0 <= i < |s| ==> u[i] == UpperChar(s[i])
  {
    if |s| == 0 then [] else Upper(s[..|s| - 1]) + [UpperChar(s[|s| - 1])]
  }

  /** Upper-casing twice is upper-casing once, so a group given in upper case
      names the same settings as its lower-case spelling. */
  lemma UpperIdempotent(s: string)
    ensures Upper(Upper(s)) == Upper(s)
  {
    var u := Upper(s);
    assert forall i :: 0 <= i < |u| ==> UpperChar(u[i]) == u[i];
  }

  /** A name with no lower-case letter is its own upper-case form. */
  lemma UpperKeepsUpperCase(s: string)
    requires forall i :: 0 <= i < |s| ==> !('a' <= s[i] <= 'z')
    ensures Upper(s) == s
  {
    assert forall i :: 0 <= i < |s| ==> Upper(s)[i] == s[i];
  }

  const WarnPrefix := "PREFECT_EXPERIMENTAL_WARN_"
  const EnablePrefix := "PREFECT_EXPERIMENTAL_ENABLE_"

  function WarnSettingName(group: string): (n: string)
    ensures |n| >= |WarnPrefix| && n[..|WarnPrefix|] == WarnPrefix
  {
    WarnPrefix + Upper(group)
  }

  function EnableSettingName(group: string): (n: string)
    ensures |n| >= |EnablePrefix| && n[..|EnablePrefix|] == EnablePrefix
  {
    EnablePrefix + Upper(group)
  }

  /** The two settings of a group never share a name, and two groups share a
      setting exactly when their names agree once upper-cased. */
  lemma SettingNamesDistinct(g: string, h: string)
    ensures WarnSettingName(g) != EnableSettingName(h)
    ensures WarnSettingName(g) == WarnSettingName(h) <==> Upper(g) == Upper(h)
    ensures EnableSettingName(g) == EnableSettingName(h) <==> Upper(g) == Upper(h)
  {
    var w, n := WarnSettingName(g), EnableSettingName(h);
    assert w[21] == 'W' && n[21] == 'E';
    if WarnSettingName(g) == WarnSettingName(h) {
      assert Upper(g) == WarnSettingName(g)[|WarnPrefix|..];
      assert Upper(h) == WarnSettingName(h)[|WarnPrefix|..];
    }
    if EnableSettingName(g) == EnableSettingName(h) {
      assert Upper(g) == EnableSettingName(g)[|EnablePrefix|..];
      assert Upper(h) == EnableSettingName(h)[|EnablePrefix|..];
    }
  }

  /** The configuration error raised for a setting that does not exist;
      `kind` is "warn" or "opt-in", and the group is quoted as given. */
  function MissingSettingMessage(kind: string, group: string, setting: string): (m: string)
    ensures |m| == |MissingHead(kind, group)| + |MissingTail(setting)|
    ensures m[..|MissingHead(kind, group)|] == MissingHead(kind, group)
    ensures m[|m| - |MissingTail(setting)|..] == MissingTail(setting)
  {
    var m := MissingHead(kind, group) + MissingTail(setting);
    assert m[..|MissingHead(kind, group)|] == MissingHead(kind, group);
    assert m[|m| - |MissingTail(setting)|..] == MissingTail(setting);
    m
  }

  /** The part of a configuration error that names the kind and the group. */
  function MissingHead(kind: string, group: string): string {
    "A " + kind + " setting for experimental feature '" + group + "'"
  }

  /** The part of a configuration error that names the missing setting. */
  function MissingTail(setting: string): string {
    " does not exist yet. '" + setting + "' must be created before the group can be used."
  }

  /** A missing warn setting and a missing opt-in setting are reported with
      different texts, whatever the group and setting names. */
  lemma MissingKindsDiffer(group: string, s1: string, s2: string)
    ensures MissingSettingMessage("warn", group, s1) != MissingSettingMessage("opt-in", group, s2)
  {
    var m1, m2 := MissingSettingMessage("warn", group, s1), MissingSettingMessage("opt-in", group, s2);
    assert m1[..|MissingHead("warn", group)|] == MissingHead("warn", group);
    assert m2[..|MissingHead("opt-in", group)|] == MissingHead("opt-in", group);
    assert m1[2] == 'w' && m2[2] == 'o';
  }

  /** The help text as it appears inside a message: nothing when there is
      no help, else the help followed by one space. */
  function HelpPart(help: string): (p: string)
    ensures help == "" ==> p == ""
    ensures help != "" ==> |p| == |help| + 1 && p[..|help|] == help && p[|help|] == ' '
  {
    if help == "" then "" else help + " "
  }

  const Caution := "The interface or behavior may change without warning, we recommend pinning versions to prevent unexpected changes. "

  function WarningHead(feature: string): string {
    feature + " is experimental. "
  }

  function WarningTail(group: string): string {
    "To disable warnings for this group of experiments, disable " + WarnSettingName(group) + "."
  }

  /** The middle of a warning: the help, if any, then the fixed caution. */
  function WarningBody(help: string): (b: string)
    ensures |b| == |HelpPart(help)| + |Caution|
    ensures b[..|HelpPart(help)|] == HelpPart(help)
  {
    HelpPart(help) + Caution
  }

  /** The warning issued for a use of an experimental feature. */
  function WarningMessage(feature: string, help: string, group: string): (m: string)
    ensures |m| == |WarningHead(feature)| + |HelpPart(help)| + |Caution| + |WarningTail(group)|
    ensures m[..|WarningHead(feature)|] == WarningHead(feature)
    ensures m[|m| - |WarningTail(group)|..] == WarningTail(group)
    ensures m[|WarningHead(feature)|..|m| - |WarningTail(group)|] == HelpPart(help) + Caution
  {
    Framed(WarningHead(feature), WarningBody(help), WarningTail(group));
    WarningHead(feature) + WarningBody(help) + WarningTail(group)
  }

  function DisabledHead(feature: string): string {
    feature + " is experimental and requires opt-in for usage. "
  }

  function DisabledTail(group: string): string {
    "To use this feature, enable " + EnableSettingName(group) + "."
  }

  /** The error raised for a use of an opt-in feature that is not enabled. */
  function DisabledMessage(feature: string, help: string, group: string): (m: string)
    ensures |m| == |DisabledHead(feature)| + |HelpPart(help)| + |DisabledTail(group)|
    ensures m[..|DisabledHead(feature)|] == DisabledHead(feature)
    ensures m[|m| - |DisabledTail(group)|..] == DisabledTail(group)
    ensures m[|DisabledHead(feature)|..|m| - |DisabledTail(group)|] == HelpPart(help)
  {
    Framed(DisabledHead(feature), HelpPart(help), DisabledTail(group));
    DisabledHead(feature) + HelpPart(help) + DisabledTail(group)
  }

  lemma HelpPartInjective(h1: string, h2: string)
    requires HelpPart(h1) == HelpPart(h2)
    ensures h1 == h2
  {
    if h1 != "" && h2 != "" {
      assert h1 == HelpPart(h1)[..|h1|];
    }
  }

  /** A message of three parts starts with the first and ends with the last,
      and the middle part is recoverable from the message. */
  lemma Framed(head: string, mid: string, tail: string)
    ensures |head + mid + tail| == |head| + |mid| + |tail|
    ensures (head + mid + tail)[..|head|] == head
    ensures (head + mid + tail)[|head| + |mid|..] == tail
    ensures (head + mid + tail)[|head|..|head| + |mid|] == mid
  {
  }

  /** A warning starts with the feature's sentence, holds the help text only
      when help is given, ends by naming the group's warn setting, and tells
      two helps apart: the help is recoverable from the message. */
  lemma WarningMessageShape(feature: string, help: string, help2: string, group: string)
    ensures var m := WarningMessage(feature, help, group);
      && m[..|WarningHead(feature)|] == WarningHead(feature)
      && m[|m| - |WarningTail(group)|..] == WarningTail(group)
      && (help == "" <==> |m| == |WarningHead(feature)| + |Caution| + |WarningTail(group)|)
    ensures WarningMessage(feature, help, group) == WarningMessage(feature, help2, group) ==> help == help2
  {
    var head, tail := WarningHead(feature), WarningTail(group);
    var mid, mid2 := WarningBody(help), WarningBody(help2);
    Framed(head, mid, tail);
    Framed(head, mid2, tail);
    if WarningMessage(feature, help, group) == WarningMessage(feature, help2, group) {
      assert mid == mid2;
      HelpPartInjective(help, help2);
    }
  }

  /** The refusal names the feature, holds the help only when given, and
      ends by naming the group's enable setting; the help is recoverable. */
  lemma DisabledMessageShape(feature: string, help: string, help2: string, group: string)
    ensures var m := DisabledMessage(feature, help, group);
      && m[..|DisabledHead(feature)|] == DisabledHead(feature)
      && m[|m| - |DisabledTail(group)|..] == DisabledTail(group)
      && (help == "" <==> |m| == |DisabledHead(feature)| + |DisabledTail(group)|)
    ensures DisabledMessage(feature, help, group) == DisabledMessage(feature, help2, group) ==> help == help2
  {
    var head, tail := DisabledHead(feature), DisabledTail(group);
    Framed(head, HelpPart(help), tail);
    Framed(head, HelpPart(help2), tail);
    if DisabledMessage(feature, help, group) == DisabledMessage(feature, help2, group) {
      HelpPartInjective(help, help2);
    }
  }

  /** A feature marked experimental. */
  datatype Marker = Marker(group: string, feature: string, help: string, optIn: bool)

  /** The settings a marker needs exist. */
  predicate Registered(s: Settings, m: Marker) {
    && WarnSettingName(m.group) in s.values
    && (m.optIn ==> EnableSettingName(m.group) in s.values)
  }

  /** Marking a feature: refused with a configuration error when a setting
      it needs is missing, the opt-in setting being checked first. */
  function Mark(s: Settings, group: string, feature: string, help: string, optIn: bool): (r: Result<Marker, string>)
    ensures r.Ok? <==> Registered(s, Marker(group, feature, help, optIn))
    ensures r.Ok? ==> r.value == Marker(group, feature, help, optIn)
    ensures r.Err? && optIn && EnableSettingName(group) !in s.values ==>
      r.error == MissingSettingMessage("opt-in", group, EnableSettingName(group))
    ensures r.Err? && (!optIn || EnableSettingName(group) in s.values) ==>
      r.error == MissingSettingMessage("warn", group, WarnSettingName(group))
  {
    if optIn && EnableSettingName(group) !in s.values then
      Err(MissingSettingMessage("opt-in", group, EnableSettingName(group)))
    else if WarnSettingName(group) !in s.values then
      Err(MissingSettingMessage("warn", group, WarnSettingName(group)))
    else
      Ok(Marker(group, feature, help, optIn))
  }

  /** What happens to one use of a marked feature: it goes ahead, possibly
      with a warning, or it is refused with an error message. */
  datatype Gate = Proceed(warning: Option<string>) | Refused(message: string)

  /** The group's opt-in setting is on. */
  predicate GroupEnabled(s: Settings, m: Marker)
    requires Registered(s, m)
  {
    m.optIn ==> s.values[EnableSettingName(m.group)]
  }

  /** Warnings are on both globally and for the group. */
  predicate Warns(s: Settings, m: Marker)
    requires Registered(s, m)
  {
    s.warn && s.values[WarnSettingName(m.group)]
  }

  /** Gates one use of a marked feature. */
  function Check(s: Settings, m: Marker): (g: Gate)
    requires Registered(s, m)
    ensures g.Refused? <==> m.optIn && !s.values[EnableSettingName(m.group)]
    ensures g.Refused? ==> g.message == DisabledMessage(m.feature, m.help, m.group)
    ensures g.Proceed? ==>
      (g.warning.Some? <==> s.warn && s.values[WarnSettingName(m.group)])
    ensures g.Proceed? && g.warning.Some? ==>
      g.warning.value == WarningMessage(m.feature, m.help, m.group)
  {
    if !GroupEnabled(s, m) then Refused(DisabledMessage(m.feature, m.help, m.group))
    else if Warns(s, m) then Proceed(Some(WarningMessage(m.feature, m.help, m.group)))
    else Proceed(None)
  }

  /** Turning off either the global or the group's warn setting silences
      every use; it never turns a refusal into a use. */
  lemma WarnSwitchesSilence(s: Settings, m: Marker)
    requires Registered(s, m)
    requires !s.warn || !s.values[WarnSettingName(m.group)]
    ensures Check(s, m).Proceed? ==> Check(s, m) == Proceed(None)
    ensures Check(s, m).Refused? <==> Check(Settings(true, s.values), m).Refused?
  {
  }

  /** Once its group is enabled, an opt-in feature behaves exactly as the same
      feature without opt-in: it goes ahead and still warns. */
  lemma OptInEnabledActsAsPlain(s: Settings, m: Marker)
    requires Registered(s, m) && m.optIn
    requires s.values[EnableSettingName(m.group)]
    ensures Registered(s, m.(optIn := false))
    ensures Check(s, m) == Check(s, m.(optIn := false))
  {
  }

  /** The value of a group's opt-in setting, or a configuration error naming
      the group as given when the setting does not exist. */
  function ExperimentEnabled(s: Settings, group: string): (r: Result<bool, string>)
    ensures r.Err? <==> EnableSettingName(group) !in s.values
    ensures r.Ok? ==> r.value == s.values[EnableSettingName(group)]
    ensures r.Err? ==> r.error == MissingSettingMessage("opt-in", group, EnableSettingName(group))
  {
    var name := EnableSettingName(group);
    if name in s.values then Ok(s.values[name])
    else Err(MissingSettingMessage("opt-in", group, name))
  }

  /** `ExperimentEnabled` agrees with the gate: a group is reported enabled
      exactly when an opt-in feature of that group is let through, and an
      unknown group is refused at marking with the same error. */
  lemma ExperimentEnabledAgreesWithGate(s: Settings, m: Marker)
    requires m.optIn
    ensures Registered(s, m) ==>
      (ExperimentEnabled(s, m.group) == Ok(true) <==> Check(s, m).Proceed?)
    ensures ExperimentEnabled(s, m.group).Err? ==>
      Mark(s, m.group, m.feature, m.help, true) == Err(ExperimentEnabled(s, m.group).error)
  {
  }

  /** A feature that is one parameter of a function. */
  datatype ParameterMarker = ParameterMarker(name: string, marker: Marker, when: Value -> bool)

  /** The feature text of a marked parameter. */
  function ParameterFeature(name: string): string {
    "The parameter '" + name + "'"
  }

  /** Marks parameter `name`; `when` defaults to always holding. */
  function MarkParameter(s: Settings, name: string, group: string, help: string, optIn: bool,
                         when: Option<Value -> bool>): (r: Result<ParameterMarker, string>)
    ensures r.Ok? <==> Registered(s, Marker(group, ParameterFeature(name), help, optIn))
    ensures r.Ok? ==> r.value.name == name
    ensures r.Ok? ==> r.value.marker == Marker(group, ParameterFeature(name), help, optIn)
    ensures r.Ok? && when.Some? ==> forall v :: r.value.when(v) == when.value(v)
    ensures r.Ok? && when.None? ==> forall v :: r.value.when(v)
    ensures r.Err? ==> r.error == Mark(s, group, ParameterFeature(name), help, optIn).error
  {
    match Mark(s, group, ParameterFeature(name), help, optIn)
    case Err(msg) => Err(msg)
    case Ok(m) => Ok(ParameterMarker(name, m, if when.Some? then when.value else (v: Value) => true))
  }

  /** A marked parameter is gated like its feature when the caller passes it
      with a value its `when` accepts (any value, without `when`), and goes
      through silently otherwise. */
  lemma MarkedParameterGates(s: Settings, name: string, group: string, help: string, optIn: bool,
                             when: Option<Value -> bool>, sig: Signature, call: Call)
    requires MarkParameter(s, name, group, help, optIn, when).Ok?
    ensures var p := MarkParameter(s, name, group, help, optIn, when).value;
      var v := ExplicitValue(sig, call, name);
      && Registered(s, p.marker)
      && CheckParameter(s, p, sig, call)
         == if v.Some? && (when.None? || when.value(v.value))
            then Check(s, Marker(group, ParameterFeature(name), help, optIn))
            else Proceed(None)
  {
  }

  /** The first position of parameter `name` in the signature. */
  function IndexOf(sig: Signature, name: string): (r: Option<nat>)
    ensures r.Some? ==> r.value < |sig| && sig[r.value].name == name
    ensures r.Some? ==> forall j :: 0 <= j < r.value ==> sig[j].name != name
    ensures r.None? ==> forall j :: 0 <= j < |sig| ==> sig[j].name != name
  {
    if |sig| == 0 then None
    else if sig[0].name == name then Some(0)
    else match IndexOf(sig[1..], name)
      case None => None
      case Some(i) => Some(i + 1)
  }

  /** The value the caller passed explicitly for parameter `name`, by
      keyword or by position; none when the parameter is left to default. */
  function ExplicitValue(sig: Signature, call: Call, name: string): (r: Option<Value>)
    ensures r.None? <==>
      && name !in call.keywords
      && forall j :: 0 <= j < |sig| && j < |call.positional| ==> sig[j].name != name
    ensures name in call.keywords ==> r == Some(call.keywords[name])
    ensures name !in call.keywords && r.Some? ==>
      exists j :: 0 <= j < |sig| && j < |call.positional| && sig[j].name == name && r.value == call.positional[j]
  {
    if name in call.keywords then Some(call.keywords[name])
    else match IndexOf(sig, name)
      case Some(i) => if i < |call.positional| then Some(call.positional[i]) else None
      case None => None
  }

  /** Gates one call of a function with a marked parameter. */
  function CheckParameter(s: Settings, p: ParameterMarker, sig: Signature, call: Call): (g: Gate)
    requires Registered(s, p.marker)
    ensures ExplicitValue(sig, call, p.name).None? ==> g == Proceed(None)
    ensures ExplicitValue(sig, call, p.name).Some? && !p.when(ExplicitValue(sig, call, p.name).value) ==>
      g == Proceed(None)
    ensures ExplicitValue(sig, call, p.name).Some? && p.when(ExplicitValue(sig, call, p.name).value) ==>
      g == Check(s, p.marker)
  {
    match ExplicitValue(sig, call, p.name)
    case None => Proceed(None)
    case Some(v) => if p.when(v) then Check(s, p.marker) else Proceed(None)
  }

  /** A marked parameter warns if and only if it is passed explicitly, its
      `when` holds for the passed value, and warnings are on. */
  lemma ParameterWarnsIff(s: Settings, p: ParameterMarker, sig: Signature, call: Call)
    requires Registered(s, p.marker) && !p.marker.optIn
    ensures CheckParameter(s, p, sig, call).Proceed?
    ensures CheckParameter(s, p, sig, call).warning.Some? <==>
      && ExplicitValue(sig, call, p.name).Some?
      && p.when(ExplicitValue(sig, call, p.name).value)
      && s.warn && s.values[WarnSettingName(p.marker.group)]
  {
  }

  /** The value `when` inspects is the value the function receives: when the
      call binds, an explicitly passed parameter is bound to the passed value
      and a parameter left out is bound to its default. */
  lemma ExplicitValueIsBound(sig: Signature, call: Call, name: string)
    requires DistinctNames(sig)
    requires Bind(sig, call).Ok?
    requires IndexOf(sig, name).Some?
    ensures var i := IndexOf(sig, name).value;
      && Bind(sig, call).value[i].0 == name
      && (ExplicitValue(sig, call, name).Some? ==>
            Bind(sig, call).value[i].1 == ExplicitValue(sig, call, name).value)
      && (ExplicitValue(sig, call, name).None? ==>
            sig[i].default.Some? && Bind(sig, call).value[i].1 == sig[i].default.value)
  {
    var i := IndexOf(sig, name).value;
    assert ParamBindable(sig, call, i);
  }

  /** The outcome of calling a function with a marked parameter. */
  datatype ParameterCallError = FeatureDisabled(message: string) | BadCall(error: BindError)

  /** The gate runs first; a use it lets through then binds like any call,
      so a bad call keeps its own binding error. */
  function InvokeParameter(s: Settings, p: ParameterMarker, sig: Signature, call: Call): (r: Result<(Option<string>, Arguments), ParameterCallError>)
    requires Registered(s, p.marker)
    ensures CheckParameter(s, p, sig, call).Refused? <==> r.Err? && r.error.FeatureDisabled?
    ensures CheckParameter(s, p, sig, call).Refused? ==>
      r == Err(FeatureDisabled(CheckParameter(s, p, sig, call).message))
    ensures CheckParameter(s, p, sig, call).Proceed? ==>
      (r.Ok? <==> Bind(sig, call).Ok?) && (r.Ok? ==> r.value.1 == Bind(sig, call).value)
    ensures CheckParameter(s, p, sig, call).Proceed? && Bind(sig, call).Err? ==>
      r == Err(BadCall(Bind(sig, call).error))
    ensures r.Ok? ==> r.value.0 == CheckParameter(s, p, sig, call).warning
  {
    match CheckParameter(s, p, sig, call)
    case Refused(msg) => Err(FeatureDisabled(msg))
    case Proceed(w) =>
      match Bind(sig, call)
      case Err(b) => Err(BadCall(b))
      case Ok(args) => Ok((w, args))
  }

  /** A call that leaves the marked parameter out is untouched by the gate:
      it binds, or fails to bind, exactly as the unmarked function would. */
  lemma UnpassedParameterIsTransparent(s: Settings, p: ParameterMarker, sig: Signature, call: Call)
    requires Registered(s, p.marker)
    requires ExplicitValue(sig, call, p.name).None?
    ensures Bind(sig, call).Ok? ==> InvokeParameter(s, p, sig, call) == Ok((None, Bind(sig, call).value))
    ensures Bind(sig, call).Err? ==> InvokeParameter(s, p, sig, call) == Err(BadCall(Bind(sig, call).error))
  {
  }
}

=== FILE: orchestration.dfy ===
/**
 The orchestration engine: task calls inside flow runs.

 A call of a task inside a flow run resolves future-valued arguments to the
 data of the runs they refer to, binds the arguments, takes the next dynamic
 key for that task in that flow run, creates a Pending run, and then either
 serves the run from the cache (Cached) or executes the body under the retry
 policy, storing a Completed result under the call's cache key. A call outside
 any flow run fails before any run is created. The engine's run records stand
 for the run record store: a map from run id to run.
 */
module Orchestration {
  import opened Results
  import opened Values
  import opened States
  import opened Binding
  import opened Retries
  import opened Cache

  /** A task: its identity, signature, retry policy, cache-key policy, and
      what its body does on each attempt for given bound arguments. */
  datatype Task = Task(
    name: string,
    signature: Signature,
    policy: RetryPolicy,
    cacheKey: CachePolicy,
    body: Arguments -> Body)

  datatype RunKind = TaskRun(task: string, flowRunId: nat) | FlowRun(flow: string)

  /** A run record: what ran, its dynamic key, its state history, and how many
      times the task body was executed for it. */
  datatype Run = Run(kind: RunKind, dynamicKey: string, history: seq<State>, calls: nat)

  /** The engine's state: run records by id, the cache store, the dynamic-key
      counter of each (flow run, task) pair, the next fresh run id, and the
      log of delay calls made between retries. */
  datatype Engine = Engine(
    runs: map<nat, Run>,
    cache: Store,
    counters: map<(nat, string), nat>,
    nextId: nat,
    sleeps: seq<nat>)

  /** The active flow run a task is called inside. */
  datatype FlowContext = FlowContext(flowRunId: nat)

  /** A handle to a run, returned by every call. */
  datatype Future = Future(runId: nat)

  datatype CallError =
    | CalledOutsideFlow
    | UnresolvedFuture
    | BadArguments(error: BindError)

  datatype LookupError = NoSuchRun | NotFinished

  datatype FlowError = UnknownFlowRun | FlowTransition(error: TransitionError)

  datatype Called = Called(engine: Engine, future: Future)

  function NewEngine(): (e: Engine)
    ensures Valid(e) && e.runs == map[] && e.cache == map[]
  {
    Engine(map[], map[], map[], 0, [])
  }

  /** Every run id was issued by the engine, every history is one the state
      machine accepts, and every task run has finished. */
  predicate Valid(e: Engine) {
    forall id :: id in e.runs ==>
      && id < e.nextId
      && ValidHistory(e.runs[id].history)
      && (e.runs[id].kind.TaskRun? ==> Finished(e.runs[id].history))
  }

  /** Starts a flow run: a fresh run that is Pending and then Running. */
  function StartFlow(e: Engine, flow: string): (r: (Engine, FlowContext))
    ensures r.1.flowRunId == e.nextId
    ensures Valid(e) ==> r.1.flowRunId !in e.runs
    ensures r.0.runs == e.runs[e.nextId := Run(FlowRun(flow), "", [Pending, Running], 0)]
    ensures r.0.nextId == e.nextId + 1 && r.0.cache == e.cache && r.0.counters == e.counters
    ensures r.0.sleeps == e.sleeps
    ensures Valid(e) ==> Valid(r.0)
  {
    var id := e.nextId;
    (e.(runs := e.runs[id := Run(FlowRun(flow), "", [Pending, Running], 0)], nextId := id + 1),
     FlowContext(id))
  }

  /** Ends a flow run with what its body did, through the state machine: a
      flow run that already ended is refused with an invalid transition. */
  function FinishFlow(e: Engine, ctx: FlowContext, outcome: Outcome): (r: Result<Engine, FlowError>)
    ensures ctx.flowRunId !in e.runs ==> r == Err(UnknownFlowRun)
    ensures ctx.flowRunId in e.runs && |e.runs[ctx.flowRunId].history| >= 1 ==>
      (r.Ok? <==> Transition(e.runs[ctx.flowRunId].history, Settle(outcome)).Ok?)
    ensures r.Err? && ctx.flowRunId in e.runs && |e.runs[ctx.flowRunId].history| >= 1 ==>
      r.error == FlowTransition(Transition(e.runs[ctx.flowRunId].history, Settle(outcome)).error)
    ensures r.Ok? ==> r.value.cache == e.cache && r.value.nextId == e.nextId
    ensures r.Ok? ==> r.value.counters == e.counters && r.value.sleeps == e.sleeps
    ensures r.Ok? ==> r.value.runs.Keys == e.runs.Keys
    ensures r.Ok? ==>
      r.value.runs[ctx.flowRunId].history == e.runs[ctx.flowRunId].history + [Settle(outcome)]
    ensures r.Ok? ==> forall id :: id in e.runs && id != ctx.flowRunId ==> r.value.runs[id] == e.runs[id]
  {
    if ctx.flowRunId !in e.runs then Err(UnknownFlowRun)
    else
      var run := e.runs[ctx.flowRunId];
      if |run.history| == 0 then Err(UnknownFlowRun)
      else match Transition(run.history, Settle(outcome))
        case Err(t) => Err(FlowTransition(t))
        case Ok(h) => Ok(e.(runs := e.runs[ctx.flowRunId := run.(history := h)]))
  }

  /** The terminal state of the run a future refers to (`future.result()`). */
  function Wait(e: Engine, f: Future): (r: Result<State, LookupError>)
    ensures r.Ok? <==> f.runId in e.runs && Finished(e.runs[f.runId].history)
    ensures r.Ok? ==> r.value.IsTerminal() && r.value == Last(e.runs[f.runId].history)
  {
    if f.runId !in e.runs then Err(NoSuchRun)
    else if !Finished(e.runs[f.runId].history) then Err(NotFinished)
    else Ok(Last(e.runs[f.runId].history))
  }

  /** A future-valued argument is replaced by the data of its run's terminal
      state; any other value is passed as it is. */
  function ResolveValue(e: Engine, v: Value): (r: Result<Value, CallError>)
    ensures !v.VFuture? ==> r == Ok(v)
    ensures v.VFuture? ==> (r.Ok? <==> Wait(e, Future(v.runId)).Ok?)
    ensures v.VFuture? && r.Ok? ==> r.value == Wait(e, Future(v.runId)).value.data
    ensures r.Err? ==> r.error == UnresolvedFuture
  {
    if !v.VFuture? then Ok(v)
    else match Wait(e, Future(v.runId))
      case Ok(s) => Ok(s.data)
      case Err(_) => Err(UnresolvedFuture)
  }

  function ResolveAll(e: Engine, vs: seq<Value>): (r: Result<seq<Value>, CallError>)
    ensures r.Ok? <==> forall i :: 0 <= i < |vs| ==> ResolveValue(e, vs[i]).Ok?
    ensures r.Ok? ==> |r.value| == |vs|
    ensures r.Ok? ==> forall i :: 0 <= i < |vs| ==> r.value[i] == ResolveValue(e, vs[i]).value
    ensures r.Err? ==> r.error == UnresolvedFuture
  {
    if |vs| == 0 then Ok([])
    else match ResolveAll(e, vs[..|vs| - 1])
      case Err(err) => Err(err)
      case Ok(init) =>
        match ResolveValue(e, vs[|vs| - 1])
        case Err(err) => Err(err)
        case Ok(v) => Ok(init + [v])
  }

  /** Resolves every future among a call's positional and keyword arguments. */
  function ResolveCall(e: Engine, call: Call): (r: Result<Call, CallError>)
    ensures r.Ok? <==>
      && (forall i :: 0 <= i < |call.positional| ==> ResolveValue(e, call.positional[i]).Ok?)
      && (forall k :: k in call.keywords ==> ResolveValue(e, call.keywords[k]).Ok?)
    ensures r.Ok? ==> |r.value.positional| == |call.positional|
    ensures r.Ok? ==> forall i :: 0 <= i < |call.positional| ==>
      ResolveValue(e, call.positional[i]) == Ok(r.value.positional[i])
    ensures r.Ok? ==> r.value.keywords.Keys == call.keywords.Keys
    ensures r.Ok? ==> forall k :: k in call.keywords ==>
      ResolveValue(e, call.keywords[k]) == Ok(r.value.keywords[k])
    ensures r.Err? ==> r.error == UnresolvedFuture
  {
    match ResolveAll(e, call.positional)
    case Err(err) => Err(err)
    case Ok(pos) =>
      if forall k :: k in call.keywords ==> ResolveValue(e, call.keywords[k]).Ok? then
        Ok(Call(pos, map k | k in call.keywords :: ResolveValue(e, call.keywords[k]).value))
      else Err(UnresolvedFuture)
  }

  /** The number of calls of `task` made so far in flow run `flow`. */
  function Counter(e: Engine, flow: nat, task: string): nat {
    if (flow, task) in e.counters then e.counters[(flow, task)] else 0
  }

  /** Runs one call with already bound arguments inside flow run `flow`:
      takes the dynamic key, creates the run, and serves it from the cache or
      executes it. */
  function Launch(e: Engine, flow: nat, task: Task, args: Arguments, elapsed: nat -> nat): (c: Called)
    ensures c.future.runId == e.nextId && c.engine.nextId == e.nextId + 1
    ensures c.engine.runs.Keys == e.runs.Keys + {e.nextId}
    ensures |c.engine.runs[e.nextId].history| >= 2
    ensures c.engine.runs[e.nextId].kind == TaskRun(task.name, flow)
    ensures c.engine.runs[e.nextId].history[0] == Pending && Finished(c.engine.runs[e.nextId].history)
    ensures c.engine.runs[e.nextId].dynamicKey == Digits(Counter(e, flow, task.name))
    ensures c.engine.runs == e.runs[e.nextId := c.engine.runs[e.nextId]]
    ensures Counter(c.engine, flow, task.name) == Counter(e, flow, task.name) + 1
    ensures c.engine.counters == e.counters[(flow, task.name) := Counter(e, flow, task.name) + 1]
  {
    var n := Counter(e, flow, task.name);
    var id := e.nextId;
    var key := KeyFor(task.cacheKey, TaskRunContext(flow, id), task.name, args);
    var counters := e.counters[(flow, task.name) := n + 1];
    match Lookup(e.cache, key)
    case Some(d) =>
      var run := Run(TaskRun(task.name, flow), Digits(n), [Pending, Cached(d)], 0);
      Called(Engine(e.runs[id := run], e.cache, counters, id + 1, e.sleeps), Future(id))
    case None =>
      var a := Execute(task.policy, task.body(args), elapsed);
      var run := Run(TaskRun(task.name, flow), Digits(n), a.history, a.calls);
      Called(
        Engine(e.runs[id := run], Record(e.cache, key, Last(a.history)), counters, id + 1, e.sleeps + a.delays),
        Future(id))
  }

  /** Calls a task. Outside a flow run the call fails at once and creates no
      run. Otherwise futures among the arguments are resolved, the arguments
      are bound, and the call is launched. */
  function CallTask(e: Engine, ctx: Option<FlowContext>, task: Task, call: Call, elapsed: nat -> nat)
    : (r: Result<Called, CallError>)
    ensures ctx.None? ==> r == Err(CalledOutsideFlow)
    ensures ctx.Some? && ResolveCall(e, call).Err? ==> r == Err(UnresolvedFuture)
    ensures ctx.Some? && ResolveCall(e, call).Ok? && Bind(task.signature, ResolveCall(e, call).value).Err? ==>
      r == Err(BadArguments(Bind(task.signature, ResolveCall(e, call).value).error))
    ensures ctx.Some? && ResolveCall(e, call).Ok? && Bind(task.signature, ResolveCall(e, call).value).Ok? ==>
      r == Ok(Launch(e, ctx.value.flowRunId, task, Bind(task.signature, ResolveCall(e, call).value).value, elapsed))
    ensures r.Ok? ==> r.value.future.runId == e.nextId && r.value.engine.nextId == e.nextId + 1
    ensures r.Ok? ==> r.value.engine.runs.Keys == e.runs.Keys + {e.nextId}
  {
    if ctx.None? then Err(CalledOutsideFlow)
    else match ResolveCall(e, call)
      case Err(err) => Err(err)
      case Ok(resolved) =>
        match Bind(task.signature, resolved)
        case Err(b) => Err(BadArguments(b))
        case Ok(args) => Ok(Launch(e, ctx.value.flowRunId, task, args, elapsed))
  }

  /** The cache key a call with these bound arguments gets in flow run `flow`. */
  function CacheKeyOf(e: Engine, flow: nat, task: Task, args: Arguments): Option<string> {
    KeyFor(task.cacheKey, TaskRunContext(flow, e.nextId), task.name, args)
  }

  /** The call is served from the cache. */
  predicate Hits(e: Engine, flow: nat, task: Task, args: Arguments) {
    Lookup(e.cache, CacheKeyOf(e, flow, task, args)).Some?
  }

  /** A launch adds exactly one run, under a fresh id, and leaves every other
      run as it was; the new run carries the next dynamic key of its task in
      its flow run, whose counter alone advances by one; the engine stays
      valid. */
  lemma LaunchRecordsRun(e: Engine, flow: nat, task: Task, args: Arguments, elapsed: nat -> nat)
    requires Valid(e)
    ensures var c := Launch(e, flow, task, args, elapsed);
      && e.nextId !in e.runs
      && (forall id :: id in e.runs ==> c.engine.runs[id] == e.runs[id])
      && c.engine.runs[e.nextId].kind == TaskRun(task.name, flow)
      && c.engine.runs[e.nextId].dynamicKey == Digits(Counter(e, flow, task.name))
      && Counter(c.engine, flow, task.name) == Counter(e, flow, task.name) + 1
      && (forall f: nat, t: string :: (f, t) != (flow, task.name) ==> Counter(c.engine, f, t) == Counter(e, f, t))
      && Valid(c.engine)
  {
    var c := Launch(e, flow, task, args, elapsed);
    var run := c.engine.runs[e.nextId];
    if Hits(e, flow, task, args) {
      CachedHistoryValid(run.history[1].data);
    } else {
      ExecuteValid(task.policy, task.body(args), elapsed);
    }
  }

  /** A cache hit never executes the body: the run goes straight from
      Pending to Cached with the stored value, and neither the store nor the
      delay log changes. */
  lemma LaunchServesFromCache(e: Engine, flow: nat, task: Task, args: Arguments, elapsed: nat -> nat)
    requires Hits(e, flow, task, args)
    ensures var c := Launch(e, flow, task, args, elapsed);
      && c.engine.runs[e.nextId].history
         == [Pending, Cached(e.cache[CacheKeyOf(e, flow, task, args).value])]
      && c.engine.runs[e.nextId].calls == 0
      && c.engine.cache == e.cache
      && c.engine.sleeps == e.sleeps
  {
  }

  /** A miss executes the body under the retry policy; the store gains the
      result under the call's key only if the run ends Completed. */
  lemma LaunchExecutesOnMiss(e: Engine, flow: nat, task: Task, args: Arguments, elapsed: nat -> nat)
    requires !Hits(e, flow, task, args)
    ensures var c := Launch(e, flow, task, args, elapsed);
      var a := Execute(task.policy, task.body(args), elapsed);
      var key := CacheKeyOf(e, flow, task, args);
      && c.engine.runs[e.nextId].history == a.history
      && c.engine.runs[e.nextId].calls == a.calls >= 1
      && c.engine.sleeps == e.sleeps + a.delays
      && (Last(a.history).Completed? && key.Some? ==>
            c.engine.cache == e.cache[key.value := Last(a.history).data])
      && (!Last(a.history).Completed? || key.None? ==> c.engine.cache == e.cache)
  {
    ExecuteValid(task.policy, task.body(args), elapsed);
    ExecuteShape(task.policy, task.body(args), elapsed);
  }

  /** Without retries, the run ends as the body did: Completed with the
      returned value, or Failed carrying exactly the raised error. */
  lemma LaunchEndsAsBodyDid(e: Engine, flow: nat, task: Task, args: Arguments, elapsed: nat -> nat)
    requires task.policy.retries == 0
    requires !Hits(e, flow, task, args)
    ensures var c := Launch(e, flow, task, args, elapsed);
      var h := c.engine.runs[e.nextId].history;
      var o := task.body(args)(0);
      && |h| == 3
      && (o.Returned? ==> Last(h) == Completed(o.value))
      && (o.Raised? ==> Last(h) == Failed(o.error))
  {
    LaunchExecutesOnMiss(e, flow, task, args, elapsed);
    ExecuteShape(task.policy, task.body(args), elapsed);
    RetryHistoryAt(1, Settle(task.body(args)(0)));
  }

  /** The future of every launched call resolves to the run's terminal state. */
  lemma LaunchedFutureResolves(e: Engine, flow: nat, task: Task, args: Arguments, elapsed: nat -> nat)
    requires Valid(e)
    ensures var c := Launch(e, flow, task, args, elapsed);
      Wait(c.engine, c.future) == Ok(Last(c.engine.runs[e.nextId].history))
  {
    LaunchRecordsRun(e, flow, task, args, elapsed);
  }

  /** Only call style differs: two calls whose resolved arguments bind to the
      same mapping behave identically, down to the cache key and every run. */
  lemma CallStyleIrrelevant(e: Engine, ctx: Option<FlowContext>, task: Task, c1: Call, c2: Call, elapsed: nat -> nat)
    requires ResolveCall(e, c1).Ok? && ResolveCall(e, c2).Ok?
    requires Bind(task.signature, ResolveCall(e, c1).value) == Bind(task.signature, ResolveCall(e, c2).value)
    ensures CallTask(e, ctx, task, c1, elapsed) == CallTask(e, ctx, task, c2, elapsed)
  {
  }

  /** A future argument whose run has finished is replaced by that run's
      terminal data before binding; a future whose run is missing or still
      running stops the call before any run is created. */
  lemma FutureArgumentResolved(e: Engine, id: nat, rest: seq<Value>)
    ensures id in e.runs && Finished(e.runs[id].history) ==>
      ResolveAll(e, [VFuture(id)] + rest).Ok? ==>
        ResolveAll(e, [VFuture(id)] + rest).value[0] == Last(e.runs[id].history).data
    ensures !(id in e.runs && Finished(e.runs[id].history)) ==>
      ResolveAll(e, [VFuture(id)] + rest) == Err(UnresolvedFuture)
  {
    var vs := [VFuture(id)] + rest;
    assert vs[0] == VFuture(id);
  }

  /** Ending a flow run keeps the engine valid, and a flow run ends only once:
      a second attempt is refused as an invalid transition. */
  lemma FlowEndsOnce(e: Engine, ctx: FlowContext, first: Outcome, second: Outcome)
    requires Valid(e)
    requires FinishFlow(e, ctx, first).Ok?
    ensures Valid(FinishFlow(e, ctx, first).value)
    ensures FinishFlow(FinishFlow(e, ctx, first).value, ctx, second)
      == Err(FlowTransition(InvalidTransition(Settle(first), Settle(second))))
  {
    var run := e.runs[ctx.flowRunId];
    TransitionKeepsValid(run.history, Settle(first));
    var e1 := FinishFlow(e, ctx, first).value;
    assert Last(e1.runs[ctx.flowRunId].history) == Settle(first);
  }

  // ---------------------------------------------------------------------
  // Sequences of calls of one task

  /** One call of the task, in flow run `flow`, with bound arguments `args`. */
  datatype Step = Step(flow: nat, args: Arguments)

  /** Launches the steps in order, one future per step; the engine stays
      valid and issues one run id per step. Which runs the futures name is
      stated by `LaunchAllFrame`. */
  function LaunchAll(e: Engine, task: Task, steps: seq<Step>, elapsed: nat -> nat): (r: (Engine, seq<Future>))
    requires Valid(e)
    ensures Valid(r.0) && |r.1| == |steps|
    ensures r.0.nextId == e.nextId + |steps|
    decreases |steps|
  {
    if |steps| == 0 then (e, [])
    else
      var c := Launch(e, steps[0].flow, task, steps[0].args, elapsed);
      LaunchRecordsRun(e, steps[0].flow, task, steps[0].args, elapsed);
      var rest := LaunchAll(c.engine, task, steps[1..], elapsed);
      (rest.0, [c.future] + rest.1)
  }

  /** One step of `LaunchAll`: the first launch, then the rest. */
  lemma LaunchAllFirst(e: Engine, task: Task, steps: seq<Step>, elapsed: nat -> nat)
    requires Valid(e) && |steps| > 0
    ensures var c := Launch(e, steps[0].flow, task, steps[0].args, elapsed);
      && Valid(c.engine)
      && LaunchAll(e, task, steps, elapsed)
         == (LaunchAll(c.engine, task, steps[1..], elapsed).0,
             [c.future] + LaunchAll(c.engine, task, steps[1..], elapsed).1)
  {
    LaunchRecordsRun(e, steps[0].flow, task, steps[0].args, elapsed);
  }

  /** Every run of `before` is still in `after`, unchanged. */
  ghost predicate RunsKept(before: map<nat, Run>, after: map<nat, Run>) {
    forall id :: id in before ==> id in after && after[id] == before[id]
  }

  /** Future i names run `first + i`, and every named run exists. */
  ghost predicate IssuedFrom(fs: seq<Future>, first: nat, runs: map<nat, Run>) {
    forall i :: 0 <= i < |fs| ==> fs[i].runId == first + i && fs[i].runId in runs
  }

  lemma IssuedCons(f: Future, fs: seq<Future>, first: nat, runs: map<nat, Run>)
    requires f.runId == first && f.runId in runs
    requires IssuedFrom(fs, first + 1, runs)
    ensures IssuedFrom([f] + fs, first, runs)
  {
    var gs := [f] + fs;
    forall i | 0 <= i < |gs|
      ensures gs[i].runId == first + i && gs[i].runId in runs
    {
      if i > 0 {
        assert gs[i] == fs[i - 1];
      }
    }
  }

  /** Launching a sequence of calls keeps every run that already existed,
      and hands back the futures of fresh runs, numbered in call order. */
  lemma {:induction false} LaunchAllFrame(e: Engine, task: Task, steps: seq<Step>, elapsed: nat -> nat)
    requires Valid(e)
    ensures var r := LaunchAll(e, task, steps, elapsed);
      RunsKept(e.runs, r.0.runs) && IssuedFrom(r.1, e.nextId, r.0.runs)
    decreases |steps|
  {
    if |steps| > 0 {
      var c := Launch(e, steps[0].flow, task, steps[0].args, elapsed);
      LaunchRecordsRun(e, steps[0].flow, task, steps[0].args, elapsed);
      LaunchAllFirst(e, task, steps, elapsed);
      LaunchAllFrame(c.engine, task, steps[1..], elapsed);
      var rest := LaunchAll(c.engine, task, steps[1..], elapsed);
      assert RunsKept(e.runs, rest.0.runs) by {
        forall id | id in e.runs
          ensures id in rest.0.runs && rest.0.runs[id] == e.runs[id]
        {
          assert c.engine.runs[id] == e.runs[id];
        }
      }
      assert e.nextId in rest.0.runs;
      IssuedCons(c.future, rest.1, e.nextId, rest.0.runs);
    }
  }

  /** The runs of futures `fs`, in order, carry dynamic keys n, n + 1, ... */
  ghost predicate NumberedFrom(runs: map<nat, Run>, fs: seq<Future>, n: nat) {
    forall i :: 0 <= i < |fs| ==> fs[i].runId in runs && runs[fs[i].runId].dynamicKey == Digits(n + i)
  }

  lemma NumberedCons(runs: map<nat, Run>, f: Future, fs: seq<Future>, n: nat)
    requires f.runId in runs && runs[f.runId].dynamicKey == Digits(n)
    requires NumberedFrom(runs, fs, n + 1)
    ensures NumberedFrom(runs, [f] + fs, n)
  {
    var gs := [f] + fs;
    forall i | 0 <= i < |gs|
      ensures gs[i].runId in runs && runs[gs[i].runId].dynamicKey == Digits(n + i)
    {
      if i > 0 {
        assert gs[i] == fs[i - 1];
      }
    }
  }

  /** Within one flow run, the n-th call of a task (from 0) gets dynamic key
      `str(n)`: successive calls get "0", "1", ... in call order. */
  lemma {:induction false} DynamicKeysInOrder(e: Engine, task: Task, flow: nat, steps: seq<Step>, elapsed: nat -> nat)
    requires Valid(e)
    requires forall i :: 0 <= i < |steps| ==> steps[i].flow == flow
    ensures var r := LaunchAll(e, task, steps, elapsed);
      NumberedFrom(r.0.runs, r.1, Counter(e, flow, task.name))
    decreases |steps|
  {
    if |steps| > 0 {
      var n := Counter(e, flow, task.name);
      assert steps[0].flow == flow;
      var c := Launch(e, steps[0].flow, task, steps[0].args, elapsed);
      LaunchRecordsRun(e, steps[0].flow, task, steps[0].args, elapsed);
      LaunchAllFirst(e, task, steps, elapsed);
      DynamicKeysInOrder(c.engine, task, flow, steps[1..], elapsed);
      LaunchAllFrame(c.engine, task, steps[1..], elapsed);
      var rest := LaunchAll(c.engine, task, steps[1..], elapsed);
      assert rest.0.runs[c.future.runId] == c.engine.runs[e.nextId];
      NumberedCons(rest.0.runs, c.future, rest.1, n);
    }
  }

  /** The task's key function gives key `k` for every step, whatever task run
      id it is handed. */
  ghost predicate KeyConstantOver(task: Task, steps: seq<Step>, k: string) {
    && task.cacheKey.KeyFn?
    && forall i, id :: 0 <= i < |steps| ==>
         task.cacheKey.f(TaskRunContext(steps[i].flow, id), steps[i].args) == k
  }

  /** Every run of futures `fs` went straight from Pending to Cached with
      data `d` and never called its body. */
  ghost predicate AllServed(runs: map<nat, Run>, fs: seq<Future>, d: Value) {
    forall i :: 0 <= i < |fs| ==>
      && fs[i].runId in runs
      && runs[fs[i].runId].history == [Pending, Cached(d)]
      && runs[fs[i].runId].calls == 0
  }

  lemma KeyConstantOverRest(task: Task, steps: seq<Step>, k: string)
    requires |steps| > 0 && KeyConstantOver(task, steps, k)
    ensures KeyConstantOver(task, steps[1..], k)
    ensures task.cacheKey.f(TaskRunContext(steps[0].flow, 0), steps[0].args) == k
  {
    forall i, id | 0 <= i < |steps[1..]|
      ensures task.cacheKey.f(TaskRunContext(steps[1..][i].flow, id), steps[1..][i].args) == k
    {
      assert steps[1..][i] == steps[i + 1];
    }
  }

  /** Once a key is stored, every call keyed by it, in any flow run, is
      Cached with the stored value and never runs the body; the store does
      not change. */
  lemma {:induction false} StoredKeyAlwaysHits(e: Engine, task: Task, steps: seq<Step>, k: string, elapsed: nat -> nat)
    requires Valid(e)
    requires KeyConstantOver(task, steps, k) && k in e.cache
    ensures var r := LaunchAll(e, task, steps, elapsed);
      r.0.cache == e.cache && AllServed(r.0.runs, r.1, e.cache[k])
    decreases |steps|
  {
    if |steps| > 0 {
      var flow, args := steps[0].flow, steps[0].args;
      var c := Launch(e, flow, task, args, elapsed);
      KeyConstantOverRest(task, steps, k);
      assert CacheKeyOf(e, flow, task, args) == Some(k);
      LaunchServesFromCache(e, flow, task, args, elapsed);
      LaunchRecordsRun(e, flow, task, args, elapsed);
      LaunchAllFirst(e, task, steps, elapsed);
      StoredKeyAlwaysHits(c.engine, task, steps[1..], k, elapsed);
      LaunchAllFrame(c.engine, task, steps[1..], elapsed);
      var rest := LaunchAll(c.engine, task, steps[1..], elapsed);
      assert rest.0.runs[c.future.runId] == c.engine.runs[e.nextId];
      AllServedCons(rest.0.runs, c.future, rest.1, e.cache[k]);
    }
  }

  lemma AllServedCons(runs: map<nat, Run>, f: Future, fs: seq<Future>, d: Value)
    requires f.runId in runs && runs[f.runId].history == [Pending, Cached(d)] && runs[f.runId].calls == 0
    requires AllServed(runs, fs, d)
    ensures AllServed(runs, [f] + fs, d)
  {
    var gs := [f] + fs;
    forall i | 0 <= i < |gs|
      ensures gs[i].runId in runs && runs[gs[i].runId].history == [Pending, Cached(d)]
      ensures runs[gs[i].runId].calls == 0
    {
      if i > 0 {
        assert gs[i] == fs[i - 1];
      }
    }
  }

  /** With a key that is the same for every call (a constant, or a key made
      from the flow run id within one flow run), the first call executes and
      ends Completed, and every later call is Cached with equal data. */
  lemma FirstCompletesThenCached(e: Engine, task: Task, steps: seq<Step>, k: string, elapsed: nat -> nat)
    requires Valid(e)
    requires |steps| >= 1
    requires KeyConstantOver(task, steps, k) && k !in e.cache
    requires Last(Execute(task.policy, task.body(steps[0].args), elapsed).history).Completed?
    ensures var r := LaunchAll(e, task, steps, elapsed);
      var d := Last(Execute(task.policy, task.body(steps[0].args), elapsed).history).data;
      && r.1[0].runId in r.0.runs
      && |r.0.runs[r.1[0].runId].history| >= 1
      && Last(r.0.runs[r.1[0].runId].history) == Completed(d)
      && AllServed(r.0.runs, r.1[1..], d)
  {
    var flow, args := steps[0].flow, steps[0].args;
    var c := Launch(e, flow, task, args, elapsed);
    KeyConstantOverRest(task, steps, k);
    assert CacheKeyOf(e, flow, task, args) == Some(k);
    LaunchExecutesOnMiss(e, flow, task, args, elapsed);
    LaunchRecordsRun(e, flow, task, args, elapsed);
    LaunchAllFirst(e, task, steps, elapsed);
    StoredKeyAlwaysHits(c.engine, task, steps[1..], k, elapsed);
    LaunchAllFrame(c.engine, task, steps[1..], elapsed);
    var rest := LaunchAll(c.engine, task, steps[1..], elapsed);
    var r := LaunchAll(e, task, steps, elapsed);
    assert r.1[1..] == rest.1;
    assert r.0.runs[e.nextId] == c.engine.runs[e.nextId];
  }

  /** The runs of futures `fs` all executed their body and none was Cached. */
  ghost predicate AllExecuted(runs: map<nat, Run>, fs: seq<Future>) {
    forall i :: 0 <= i < |fs| ==>
      && fs[i].runId in runs
      && |runs[fs[i].runId].history| >= 1
      && !Last(runs[fs[i].runId].history).Cached?
      && runs[fs[i].runId].calls >= 1
  }

  /** The key function never gives two task runs the same key. */
  ghost predicate KeysNeverRepeat(f: (TaskRunContext, Arguments) -> string) {
    forall c1: TaskRunContext, a1: Arguments, c2: TaskRunContext, a2: Arguments ::
      c1.taskRunId != c2.taskRunId ==> f(c1, a1) != f(c2, a2)
  }

  /** No key the function can give a task run from `next` on is stored yet. */
  ghost predicate KeysFresh(f: (TaskRunContext, Arguments) -> string, store: Store, next: nat) {
    forall c: TaskRunContext, a: Arguments :: c.taskRunId >= next ==> f(c, a) !in store
  }

  /** A key function that never repeats a key defeats the cache: no call is
      ever Cached, and every call executes its body. */
  lemma {:induction false} FreshKeysNeverHit(e: Engine, task: Task, steps: seq<Step>, elapsed: nat -> nat)
    requires Valid(e)
    requires task.cacheKey.KeyFn?
    requires KeysNeverRepeat(task.cacheKey.f)
    requires KeysFresh(task.cacheKey.f, e.cache, e.nextId)
    ensures var r := LaunchAll(e, task, steps, elapsed);
      AllExecuted(r.0.runs, r.1)
    decreases |steps|
  {
    if |steps| > 0 {
      var f := task.cacheKey.f;
      var flow, args := steps[0].flow, steps[0].args;
      var c := Launch(e, flow, task, args, elapsed);
      var key := f(TaskRunContext(flow, e.nextId), args);
      assert CacheKeyOf(e, flow, task, args) == Some(key);
      assert !Hits(e, flow, task, args);
      LaunchExecutesOnMiss(e, flow, task, args, elapsed);
      LaunchRecordsRun(e, flow, task, args, elapsed);
      ExecuteValid(task.policy, task.body(args), elapsed);
      assert KeysFresh(f, c.engine.cache, c.engine.nextId) by {
        forall ctx: TaskRunContext, a: Arguments | ctx.taskRunId >= c.engine.nextId
          ensures f(ctx, a) !in c.engine.cache
        {
          assert f(ctx, a) != key;
          assert f(ctx, a) !in e.cache;
        }
      }
      LaunchAllFirst(e, task, steps, elapsed);
      FreshKeysNeverHit(c.engine, task, steps[1..], elapsed);
      LaunchAllFrame(c.engine, task, steps[1..], elapsed);
      var rest := LaunchAll(c.engine, task, steps[1..], elapsed);
      assert rest.0.runs[c.future.runId] == c.engine.runs[e.nextId];
      AllExecutedCons(rest.0.runs, c.future, rest.1);
    }
  }

  /** Without a cache-key policy no call is served from the cache: repeated
      calls, even with equal arguments, each execute their body, and the
      store is never written. */
  lemma {:induction false} NoCacheNeverHits(e: Engine, task: Task, steps: seq<Step>, elapsed: nat -> nat)
    requires Valid(e)
    requires task.cacheKey.NoCache?
    ensures var r := LaunchAll(e, task, steps, elapsed);
      r.0.cache == e.cache && AllExecuted(r.0.runs, r.1)
    decreases |steps|
  {
    if |steps| > 0 {
      var flow, args := steps[0].flow, steps[0].args;
      var c := Launch(e, flow, task, args, elapsed);
      assert !Hits(e, flow, task, args);
      LaunchExecutesOnMiss(e, flow, task, args, elapsed);
      LaunchRecordsRun(e, flow, task, args, elapsed);
      ExecuteValid(task.policy, task.body(args), elapsed);
      LaunchAllFirst(e, task, steps, elapsed);
      NoCacheNeverHits(c.engine, task, steps[1..], elapsed);
      LaunchAllFrame(c.engine, task, steps[1..], elapsed);
      var rest := LaunchAll(c.engine, task, steps[1..], elapsed);
      assert rest.0.runs[c.future.runId] == c.engine.runs[e.nextId];
      AllExecutedCons(rest.0.runs, c.future, rest.1);
    }
  }

  lemma AllExecutedCons(runs: map<nat, Run>, f: Future, fs: seq<Future>)
    requires f.runId in runs && |runs[f.runId].history| >= 1
    requires !Last(runs[f.runId].history).Cached? && runs[f.runId].calls >= 1
    requires AllExecuted(runs, fs)
    ensures AllExecuted(runs, [f] + fs)
  {
    var gs := [f] + fs;
    forall i | 0 <= i < |gs|
      ensures gs[i].runId in runs && |runs[gs[i].runId].history| >= 1
      ensures !Last(runs[gs[i].runId].history).Cached? && runs[gs[i].runId].calls >= 1
    {
      if i > 0 {
        assert gs[i] == fs[i - 1];
      }
    }
  }

  /** With the built-in input hash, a call is served from the cache exactly
      when a call of the same task with equal bound arguments stored its
      result: keys of unequal arguments never collide. */
  lemma InputHashHitsOnlyEqualInputs(e: Engine, flow: nat, task: Task, args: Arguments, seen: Arguments)
    requires task.cacheKey.TaskInputHash?
    requires e.cache.Keys == {InputHash(task.name, seen)}
    ensures Hits(e, flow, task, args) <==> args == seen
  {
    if Hits(e, flow, task, args) {
      InputHashInjective(task.name, args, task.name, seen);
    }
  }

  /** A miss whose body returns on the first attempt completes with that
      value and stores it under the call's key. */
  lemma LaunchCompletesFirstTime(e: Engine, flow: nat, task: Task, args: Arguments, elapsed: nat -> nat)
    requires !Hits(e, flow, task, args)
    requires task.body(args)(0).Returned?
    requires CacheKeyOf(e, flow, task, args).Some?
    ensures var c := Launch(e, flow, task, args, elapsed);
      && Last(c.engine.runs[e.nextId].history) == Completed(task.body(args)(0).value)
      && c.engine.cache == e.cache[CacheKeyOf(e, flow, task, args).value := task.body(args)(0).value]
  {
    LaunchExecutesOnMiss(e, flow, task, args, elapsed);
    SucceedsOnAttempt(task.policy, task.body(args), elapsed, 1);
  }

  /** The run of future i ended in state `ends[i]`. */
  ghost predicate EndedAs(runs: map<nat, Run>, fs: seq<Future>, ends: seq<State>) {
    && |fs| == |ends|
    && forall i :: 0 <= i < |fs| ==>
         && fs[i].runId in runs
         && |runs[fs[i].runId].history| >= 1
         && Last(runs[fs[i].runId].history) == ends[i]
  }

  lemma EndedAsCons(runs: map<nat, Run>, f: Future, fs: seq<Future>, s: State, ends: seq<State>)
    requires f.runId in runs && |runs[f.runId].history| >= 1 && Last(runs[f.runId].history) == s
    requires EndedAs(runs, fs, ends)
    ensures EndedAs(runs, [f] + fs, [s] + ends)
  {
    var gs, es := [f] + fs, [s] + ends;
    forall i | 0 <= i < |gs|
      ensures gs[i].runId in runs && |runs[gs[i].runId].history| >= 1
      ensures Last(runs[gs[i].runId].history) == es[i]
    {
      if i > 0 {
        assert gs[i] == fs[i - 1] && es[i] == ends[i - 1];
      }
    }
  }

  /** A script ends as its first launch did, followed by how the rest of
      the script ends. */
  lemma LaunchAllEndsCons(e: Engine, task: Task, first: Step, rest: seq<Step>, elapsed: nat -> nat, ends: seq<State>)
    requires Valid(e)
    ensures var c := Launch(e, first.flow, task, first.args, elapsed);
      var r := LaunchAll(e, task, [first] + rest, elapsed);
      (Valid(c.engine) &&
       EndedAs(LaunchAll(c.engine, task, rest, elapsed).0.runs, LaunchAll(c.engine, task, rest, elapsed).1, ends))
      ==> EndedAs(r.0.runs, r.1, [Last(c.engine.runs[e.nextId].history)] + ends)
  {
    var steps := [first] + rest;
    assert steps[0] == first && steps[1..] == rest;
    var c := Launch(e, first.flow, task, first.args, elapsed);
    LaunchAllFirst(e, task, steps, elapsed);
    LaunchAllFrame(c.engine, task, rest, elapsed);
    var tail := LaunchAll(c.engine, task, rest, elapsed);
    if EndedAs(tail.0.runs, tail.1, ends) {
      assert tail.0.runs[e.nextId] == c.engine.runs[e.nextId];
      EndedAsCons(tail.0.runs, c.future, tail.1, Last(c.engine.runs[e.nextId].history), ends);
    }
  }

  /** `task_input_hash` caches by input, within and across flow runs: calls
      with inputs a, then b different from a, then a again end Completed,
      Completed, and Cached with the first result. */
  lemma InputHashSequence(e: Engine, task: Task, a: Arguments, b: Arguments, f1: nat, f2: nat, f3: nat,
                          elapsed: nat -> nat)
    requires Valid(e) && e.cache == map[]
    requires task.cacheKey.TaskInputHash? && a != b
    requires task.body(a)(0).Returned? && task.body(b)(0).Returned?
    ensures var r := LaunchAll(e, task, [Step(f1, a), Step(f2, b), Step(f3, a)], elapsed);
      EndedAs(r.0.runs, r.1,
        [Completed(task.body(a)(0).value), Completed(task.body(b)(0).value), Cached(task.body(a)(0).value)])
  {
    var va, vb := task.body(a)(0).value, task.body(b)(0).value;
    var c1 := Launch(e, f1, task, a, elapsed);
    InputHashFirst(e, task, a, f1, elapsed);
    InputHashAfterFirst(c1.engine, task, a, va, b, f2, f3, elapsed);
    ThreeSteps(e, task, Step(f1, a), Step(f2, b), Step(f3, a), elapsed, Completed(va), Completed(vb), Cached(va));
  }

  /** A script of three calls ends as its first call did, followed by how the
      remaining two end. */
  lemma ThreeSteps(e: Engine, task: Task, s1: Step, s2: Step, s3: Step, elapsed: nat -> nat, t1: State, t2: State, t3: State)
    requires Valid(e)
    requires Valid(Launch(e, s1.flow, task, s1.args, elapsed).engine)
    requires Last(Launch(e, s1.flow, task, s1.args, elapsed).engine.runs[e.nextId].history) == t1
    requires EndedAs(LaunchAll(Launch(e, s1.flow, task, s1.args, elapsed).engine, task, [s2, s3], elapsed).0.runs,
                     LaunchAll(Launch(e, s1.flow, task, s1.args, elapsed).engine, task, [s2, s3], elapsed).1, [t2, t3])
    ensures EndedAs(LaunchAll(e, task, [s1, s2, s3], elapsed).0.runs, LaunchAll(e, task, [s1, s2, s3], elapsed).1, [t1, t2, t3])
  {
    var steps := [s1, s2, s3];
    assert steps[1..] == [s2, s3];
    StepsEndCons(e, task, steps, elapsed, [t2, t3]);
    assert [t1] + [t2, t3] == [t1, t2, t3];
  }

  /** Into an empty store, a first input completes and is stored. */
  lemma InputHashFirst(e: Engine, task: Task, a: Arguments, f1: nat, elapsed: nat -> nat)
    requires Valid(e) && e.cache == map[]
    requires task.cacheKey.TaskInputHash? && task.body(a)(0).Returned?
    ensures var c := Launch(e, f1, task, a, elapsed);
      && Valid(c.engine)
      && c.engine.cache == map[InputHash(task.name, a) := task.body(a)(0).value]
      && Last(c.engine.runs[e.nextId].history) == Completed(task.body(a)(0).value)
  {
    assert CacheKeyOf(e, f1, task, a) == Some(InputHash(task.name, a));
    LaunchCompletesFirstTime(e, f1, task, a, elapsed);
    LaunchRecordsRun(e, f1, task, a, elapsed);
  }

  /** After input a stored its result, inputs b then a end Completed and
      Cached with a's result. */
  lemma InputHashAfterFirst(e: Engine, task: Task, a: Arguments, va: Value, b: Arguments, f2: nat, f3: nat, elapsed: nat -> nat)
    requires Valid(e) && e.cache == map[InputHash(task.name, a) := va]
    requires task.cacheKey.TaskInputHash? && a != b
    requires task.body(b)(0).Returned?
    ensures var r := LaunchAll(e, task, [Step(f2, b), Step(f3, a)], elapsed);
      EndedAs(r.0.runs, r.1, [Completed(task.body(b)(0).value), Cached(va)])
  {
    var steps := [Step(f2, b), Step(f3, a)];
    var ha, hb := InputHash(task.name, a), InputHash(task.name, b);
    assert ha != hb by {
      if ha == hb {
        InputHashInjective(task.name, a, task.name, b);
      }
    }
    var c2 := Launch(e, f2, task, b, elapsed);
    assert CacheKeyOf(e, f2, task, b) == Some(hb);
    LaunchCompletesFirstTime(e, f2, task, b, elapsed);
    LaunchRecordsRun(e, f2, task, b, elapsed);
    assert c2.engine.cache[ha] == va;
    InputHashLast(c2.engine, task, a, f3, elapsed);
    TwoSteps(e, task, Step(f2, b), Step(f3, a), elapsed, Completed(task.body(b)(0).value), Cached(va));
  }

  /** A script of two calls ends as its first call did, followed by how the
      second ends. */
  lemma TwoSteps(e: Engine, task: Task, s1: Step, s2: Step, elapsed: nat -> nat, t1: State, t2: State)
    requires Valid(e)
    requires Valid(Launch(e, s1.flow, task, s1.args, elapsed).engine)
    requires Last(Launch(e, s1.flow, task, s1.args, elapsed).engine.runs[e.nextId].history) == t1
    requires EndedAs(LaunchAll(Launch(e, s1.flow, task, s1.args, elapsed).engine, task, [s2], elapsed).0.runs,
                     LaunchAll(Launch(e, s1.flow, task, s1.args, elapsed).engine, task, [s2], elapsed).1, [t2])
    ensures EndedAs(LaunchAll(e, task, [s1, s2], elapsed).0.runs, LaunchAll(e, task, [s1, s2], elapsed).1, [t1, t2])
  {
    var steps := [s1, s2];
    assert steps[1..] == [s2];
    StepsEndCons(e, task, steps, elapsed, [t2]);
    assert [t1] + [t2] == [t1, t2];
  }

  lemma StepsEndCons(e: Engine, task: Task, steps: seq<Step>, elapsed: nat -> nat, ends: seq<State>)
    requires Valid(e) && |steps| >= 1
    ensures var c := Launch(e, steps[0].flow, task, steps[0].args, elapsed);
      var r := LaunchAll(e, task, steps, elapsed);
      (Valid(c.engine) &&
       EndedAs(LaunchAll(c.engine, task, steps[1..], elapsed).0.runs, LaunchAll(c.engine, task, steps[1..], elapsed).1, ends))
      ==> EndedAs(r.0.runs, r.1, [Last(c.engine.runs[e.nextId].history)] + ends)
  {
    LaunchAllEndsCons(e, task, steps[0], steps[1..], elapsed, ends);
    assert [steps[0]] + steps[1..] == steps;
  }

  /** Input a, once stored, is served from the cache. */
  lemma InputHashLast(e: Engine, task: Task, a: Arguments, f3: nat, elapsed: nat -> nat)
    requires Valid(e) && task.cacheKey.TaskInputHash?
    requires InputHash(task.name, a) in e.cache
    ensures var r := LaunchAll(e, task, [Step(f3, a)], elapsed);
      EndedAs(r.0.runs, r.1, [Cached(e.cache[InputHash(task.name, a)])])
  {
    InputHashServesFirst(e, task, a, f3, elapsed);
    LaunchAllEndsCons(e, task, Step(f3, a), [], elapsed, []);
    assert [Step(f3, a)] + [] == [Step(f3, a)];
  }

  lemma InputHashServesFirst(e: Engine, task: Task, a: Arguments, f3: nat, elapsed: nat -> nat)
    requires task.cacheKey.TaskInputHash?
    requires InputHash(task.name, a) in e.cache
    ensures Launch(e, f3, task, a, elapsed).engine.runs[e.nextId].history
      == [Pending, Cached(e.cache[InputHash(task.name, a)])]
  {
    assert CacheKeyOf(e, f3, task, a) == Some(InputHash(task.name, a));
    LaunchServesFromCache(e, f3, task, a, elapsed);
  }
}

=== FILE: results.dfy ===
/** Absent values and error returns, shared by every module of the model. */
module Results {

  /** A value that may be absent (Python's `None`). */
  datatype Option<T> = None | Some(value: T)

  /** Either a value or the error the operation raised. */
  datatype Result<T, E> = Ok(value: T) | Err(error: E)
}

=== FILE: retries.dfy ===
/**
 The retry loop of a task run.

 A task with `retries` = N runs its body until the first attempt that returns,
 or until N + 1 attempts have raised. Before each retry the run enters
 Awaiting Retry, one delay call is made, and the run re-enters Running. The
 attempt that ends the loop moves the run to Completed (it returned) or Failed
 (it raised, carrying that error).

 The body is modelled by the outcome of each attempt, indexed from 0: this is
 how a body that counts its own calls (succeeding on the k-th) behaves. The
 delay call's duration is the configured delay less the time that already
 elapsed since the retry was scheduled, which is an injected clock reading.
 */
module Retries {
  import opened Values
  import opened States

  datatype RetryPolicy = RetryPolicy(retries: nat, retryDelaySeconds: nat)

  /** What one attempt of a task body did. */
  datatype Outcome = Returned(value: Value) | Raised(error: Value)

  /** The outcome of each attempt, by attempt index. */
  type Body = nat -> Outcome

  /** The record of a finished retry loop: the run's state history, how many
      times the body was called, and the duration of each delay call. */
  datatype Attempts = Attempts(history: seq<State>, calls: nat, delays: seq<nat>)

  /** The terminal state an attempt that ends the loop leads to. */
  function Settle(o: Outcome): (s: State)
    ensures s.IsTerminal() && !s.Cached?
    ensures s.Completed? <==> o.Returned?
    ensures s.data == (if o.Returned? then o.value else o.error)
  {
    match o
    case Returned(v) => Completed(v)
    case Raised(e) => Failed(e)
  }

  /** The duration of the delay call before retry `retry`: what remains of the
      configured delay once `elapsed(retry)` seconds have already passed. */
  function Delay(policy: RetryPolicy, elapsed: nat -> nat, retry: nat): (d: nat)
    ensures d <= policy.retryDelaySeconds
    ensures d + elapsed(retry) >= policy.retryDelaySeconds
    ensures elapsed(retry) <= policy.retryDelaySeconds ==> d + elapsed(retry) == policy.retryDelaySeconds
  {
    if elapsed(retry) >= policy.retryDelaySeconds then 0
    else policy.retryDelaySeconds - elapsed(retry)
  }

  /** The index of the attempt that ends the loop when attempts start at `i`:
      every earlier attempt raised, and this one returned or was the last
      one allowed. */
  function LastAttempt(body: Body, i: nat, retries: nat): (j: nat)
    requires i <= retries
    ensures i <= j <= retries
    ensures forall a :: i <= a < j ==> body(a).Raised?
    ensures body(j).Returned? || j == retries
    decreases retries - i
  {
    if body(i).Returned? || i == retries then i else LastAttempt(body, i + 1, retries)
  }

  /** One turn of the loop: call the body for attempt `attempt` and either
      finish the run or schedule the next attempt. */
  function Drive(policy: RetryPolicy, body: Body, elapsed: nat -> nat, attempt: nat, acc: Attempts): (r: Attempts)
    requires attempt <= policy.retries
    ensures |r.history| > |acc.history|
    ensures |acc.history| >= 2 ==> r.history[0] == acc.history[0] && r.history[1] == acc.history[1]
    ensures acc.calls < r.calls <= acc.calls + (policy.retries - attempt) + 1
    ensures |r.delays| == |acc.delays| + (r.calls - acc.calls - 1)
    ensures r.history[|r.history| - 1].IsTerminal() && !r.history[|r.history| - 1].Cached?
    decreases policy.retries - attempt
  {
    match body(attempt)
    case Returned(v) =>
      Attempts(acc.history + [Completed(v)], acc.calls + 1, acc.delays)
    case Raised(e) =>
      if attempt < policy.retries then
        Drive(policy, body, elapsed, attempt + 1, Retried(policy, elapsed, attempt, acc))
      else
        Attempts(acc.history + [Failed(e)], acc.calls + 1, acc.delays)
  }

  /** Runs a task body under its retry policy, starting from a run that was
      created Pending and has just entered Running. */
  function Execute(policy: RetryPolicy, body: Body, elapsed: nat -> nat): (a: Attempts)
    ensures |a.history| >= 3 && a.history[0] == Pending && a.history[1] == Running
    ensures 1 <= a.calls <= policy.retries + 1
    ensures |a.delays| == a.calls - 1
    ensures Finished(a.history) && !Last(a.history).Cached?
  {
    Drive(policy, body, elapsed, 0, Attempts([Pending, Running], 0, []))
  }

  /** The number of body calls the loop makes. */
  function CallsMade(policy: RetryPolicy, body: Body): nat {
    LastAttempt(body, 0, policy.retries) + 1
  }

  /** The accumulator after attempt `attempt` raised and a retry was
      scheduled. */
  function Retried(policy: RetryPolicy, elapsed: nat -> nat, attempt: nat, acc: Attempts): Attempts {
    Attempts(acc.history + [AwaitingRetry, Running], acc.calls + 1,
      acc.delays + [Delay(policy, elapsed, attempt)])
  }

  lemma DriveStep(policy: RetryPolicy, body: Body, elapsed: nat -> nat, i: nat, acc: Attempts)
    requires i < policy.retries && body(i).Raised?
    ensures Drive(policy, body, elapsed, i, acc)
      == Drive(policy, body, elapsed, i + 1, Retried(policy, elapsed, i, acc))
  {
  }

  lemma DriveStops(policy: RetryPolicy, body: Body, elapsed: nat -> nat, i: nat, acc: Attempts)
    requires i <= policy.retries && (body(i).Returned? || i == policy.retries)
    ensures Drive(policy, body, elapsed, i, acc)
      == Attempts(acc.history + [Settle(body(i))], acc.calls + 1, acc.delays)
  {
  }

  /** The loop's record before attempt `i`: i calls made, the history so far
      Pending, Running and (Awaiting Retry, Running) per retry, and one delay
      call per retry. */
  predicate LoopAt(policy: RetryPolicy, elapsed: nat -> nat, i: nat, acc: Attempts) {
    && acc.history == [Pending, Running] + Cycles(i)
    && acc.calls == i
    && |acc.delays| == i
    && forall j :: 0 <= j < i ==> acc.delays[j] == Delay(policy, elapsed, j)
  }

  /** Scheduling a retry takes the record from attempt i to attempt i + 1. */
  lemma RetriedLoopAt(policy: RetryPolicy, elapsed: nat -> nat, i: nat, acc: Attempts)
    requires LoopAt(policy, elapsed, i, acc)
    ensures LoopAt(policy, elapsed, i + 1, Retried(policy, elapsed, i, acc))
  {
    var next := Retried(policy, elapsed, i, acc);
    assert Cycles(i + 1) == Cycles(i) + [AwaitingRetry, Running];
    assert next.history == [Pending, Running] + (Cycles(i) + [AwaitingRetry, Running]);
    assert forall j :: 0 <= j < i ==> next.delays[j] == acc.delays[j];
  }

  /** The loop's record once it ended after k calls: the history of k
      attempts ending as attempt k - 1 settled, and one delay call per retry. */
  predicate Settled(policy: RetryPolicy, body: Body, elapsed: nat -> nat, k: nat, a: Attempts) {
    && k >= 1
    && a.calls == k
    && a.history == RetryHistory(k, Settle(body(k - 1)))
    && |a.delays| == k - 1
    && forall j :: 0 <= j < k - 1 ==> a.delays[j] == Delay(policy, elapsed, j)
  }

  /** The attempt that ends the loop settles the run after i retries. */
  lemma StopLoopAt(policy: RetryPolicy, body: Body, elapsed: nat -> nat, i: nat, acc: Attempts)
    requires i <= policy.retries && (body(i).Returned? || i == policy.retries)
    requires LoopAt(policy, elapsed, i, acc)
    ensures Settled(policy, body, elapsed, i + 1, Drive(policy, body, elapsed, i, acc))
  {
    DriveStops(policy, body, elapsed, i, acc);
  }

  lemma {:induction false} DriveShape(policy: RetryPolicy, body: Body, elapsed: nat -> nat, i: nat, acc: Attempts)
    requires i <= policy.retries
    requires LoopAt(policy, elapsed, i, acc)
    ensures Settled(policy, body, elapsed, LastAttempt(body, i, policy.retries) + 1, Drive(policy, body, elapsed, i, acc))
    decreases policy.retries - i
  {
    if body(i).Raised? && i < policy.retries {
      RetriedLoopAt(policy, elapsed, i, acc);
      DriveStep(policy, body, elapsed, i, acc);
      assert LastAttempt(body, i, policy.retries) == LastAttempt(body, i + 1, policy.retries);
      DriveShape(policy, body, elapsed, i + 1, Retried(policy, elapsed, i, acc));
    } else {
      assert LastAttempt(body, i, policy.retries) == i;
      StopLoopAt(policy, body, elapsed, i, acc);
    }
  }

  /** The loop's closed form: the body is called k times, where attempt k - 1
      is the first that returned (or the last allowed); the history is
      Pending, Running, (Awaiting Retry, Running) x (k - 1), then the state
      attempt k - 1 settles to; and delay call j precedes retry j + 1. */
  lemma ExecuteShape(policy: RetryPolicy, body: Body, elapsed: nat -> nat)
    ensures var k := CallsMade(policy, body);
            var a := Execute(policy, body, elapsed);
            && a.calls == k
            && a.history == RetryHistory(k, Settle(body(k - 1)))
            && |a.delays| == k - 1
            && forall j :: 0 <= j < k - 1 ==> a.delays[j] == Delay(policy, elapsed, j)
  {
    assert [Pending, Running] + Cycles(0) == [Pending, Running];
    DriveShape(policy, body, elapsed, 0, Attempts([Pending, Running], 0, []));
  }

  /** The loop always leaves a finished history the state machine accepts. */
  lemma ExecuteValid(policy: RetryPolicy, body: Body, elapsed: nat -> nat)
    ensures ValidHistory(Execute(policy, body, elapsed).history)
    ensures Finished(Execute(policy, body, elapsed).history)
    ensures !Last(Execute(policy, body, elapsed).history).Cached?
  {
    var k := CallsMade(policy, body);
    ExecuteShape(policy, body, elapsed);
    RetryHistoryValid(k, Settle(body(k - 1)));
    RetryHistoryAt(k, Settle(body(k - 1)));
  }

  /** A body that first returns `v` on attempt k (1-based), within the
      allowed N + 1 attempts, is called exactly k times and the run ends
      Completed with `v` after k - 1 retries. */
  lemma SucceedsOnAttempt(policy: RetryPolicy, body: Body, elapsed: nat -> nat, k: nat)
    requires 1 <= k <= policy.retries + 1
    requires forall i :: 0 <= i < k - 1 ==> body(i).Raised?
    requires body(k - 1).Returned?
    ensures Execute(policy, body, elapsed).calls == k
    ensures Execute(policy, body, elapsed).history == RetryHistory(k, Completed(body(k - 1).value))
    ensures |Execute(policy, body, elapsed).delays| == k - 1
  {
    assert LastAttempt(body, 0, policy.retries) == k - 1;
    ExecuteShape(policy, body, elapsed);
  }

  /** A body that raises on every attempt is called N + 1 times; the run ends
      Failed with the last error after N retries. The history is Pending,
      Running, (Awaiting Retry, Running) x N, Failed: 2N + 3 entries, nine
      for N = 3 (test_tasks.py:133-143). */
  lemma ExhaustsRetries(policy: RetryPolicy, body: Body, elapsed: nat -> nat)
    requires forall i :: 0 <= i <= policy.retries ==> body(i).Raised?
    ensures Execute(policy, body, elapsed).calls == policy.retries + 1
    ensures Execute(policy, body, elapsed).history
      == RetryHistory(policy.retries + 1, Failed(body(policy.retries).error))
    ensures |Execute(policy, body, elapsed).history| == 2 * policy.retries + 3
    ensures |Execute(policy, body, elapsed).delays| == policy.retries
  {
    var n := policy.retries;
    assert LastAttempt(body, 0, n) == n;
    ExecuteShape(policy, body, elapsed);
    RetryHistoryAt(n + 1, Failed(body(n).error));
  }

  /** One delay call per retry, none longer than the configured delay, and
      each exactly the configured delay when no time has elapsed. */
  lemma DelaysPerRetry(policy: RetryPolicy, body: Body, elapsed: nat -> nat)
    ensures |Execute(policy, body, elapsed).delays| == Execute(policy, body, elapsed).calls - 1
    ensures forall j :: 0 <= j < |Execute(policy, body, elapsed).delays| ==>
      Execute(policy, body, elapsed).delays[j] <= policy.retryDelaySeconds
    ensures forall j :: 0 <= j < |Execute(policy, body, elapsed).delays| && elapsed(j) == 0 ==>
      Execute(policy, body, elapsed).delays[j] == policy.retryDelaySeconds
  {
    ExecuteShape(policy, body, elapsed);
  }
}

=== FILE: scenarios.dfy ===
/**
 Concrete behaviours of the engine and of the experimental-feature gate,
 each derived from the general lemmas of the other modules.
 */
module Scenarios {
  import opened Results
  import opened Values
  import opened States
  import opened Binding
  import opened Retries
  import opened Cache
  import opened Orchestration
  import opened Experimental

  // ---------------------------------------------------------------------
  // Task runs

  /** With retries = 3 and a body that always raises, the run's stored
      history lists nine states. */
  lemma ThreeRetriesExhausted(body: Body, elapsed: nat -> nat)
    requires forall i :: body(i).Raised?
    ensures var a := Execute(RetryPolicy(3, 0), body, elapsed);
      && a.calls == 4
      && DisplayNames(a.history) == ["Pending", "Running", "Awaiting Retry", "Running", "Awaiting Retry",
                              "Running", "Awaiting Retry", "Running", "Failed"]
  {
    ExhaustsRetries(RetryPolicy(3, 0), body, elapsed);
    FourAttemptNames(Failed(body(3).error));
  }

  /** With retries = 3 and a body that raises three times and then returns,
      the body is called four times and the history lists nine states
      ending Completed with the returned value. */
  lemma SucceedsOnFourthAttempt(body: Body, elapsed: nat -> nat)
    requires body(0).Raised? && body(1).Raised? && body(2).Raised? && body(3).Returned?
    ensures var a := Execute(RetryPolicy(3, 0), body, elapsed);
      && a.calls == 4
      && DisplayNames(a.history) == ["Pending", "Running", "Awaiting Retry", "Running", "Awaiting Retry",
                              "Running", "Awaiting Retry", "Running", "Completed"]
      && a.history[8] == Completed(body(3).value)
  {
    assert forall i :: 0 <= i < 3 ==> body(i).Raised? by {
      forall i | 0 <= i < 3 ensures body(i).Raised? {
        assert i == 0 || i == 1 || i == 2;
      }
    }
    SucceedsOnAttempt(RetryPolicy(3, 0), body, elapsed, 4);
    FourAttemptNames(Completed(body(3).value));
  }

  /** The names of a four-attempt history; the last one names the terminal
      state. */
  lemma FourAttemptNames(last: State)
    ensures DisplayNames(RetryHistory(4, last)) == ["Pending", "Running", "Awaiting Retry", "Running", "Awaiting Retry",
                              "Running", "Awaiting Retry", "Running", last.Name()]
  {
    RetryHistoryAt(4, last);
    var h := RetryHistory(4, last);
    assert h[1] == Between(1) && h[2] == Between(2) && h[3] == Between(3) && h[4] == Between(4);
    assert h[5] == Between(5) && h[6] == Between(6) && h[7] == Between(7);
  }

  /** A body that raises once and then returns is called twice; the run
      passes through Awaiting Retry once and ends Completed. */
  lemma SucceedsOnSecondAttempt(policy: RetryPolicy, body: Body, elapsed: nat -> nat)
    requires policy.retries >= 1
    requires body(0).Raised? && body(1).Returned?
    ensures var a := Execute(policy, body, elapsed);
      && a.calls == 2
      && a.history == [Pending, Running, AwaitingRetry, Running, Completed(body(1).value)]
      && DisplayNames(a.history) == ["Pending", "Running", "Awaiting Retry", "Running", "Completed"]
  {
    SucceedsOnAttempt(policy, body, elapsed, 2);
    assert Cycles(1) == [AwaitingRetry, Running];
  }

  /** With retries = 1, a delay of 43 seconds and a body that raises once and
      then returns, exactly one delay call is made, of at most 43 seconds,
      strictly between 40 and 43 seconds when more than zero and less than
      three seconds have already passed; the run passes through Awaiting Retry and ends
      Completed. */
  lemma SingleRetryDelay(body: Body, elapsed: nat -> nat)
    requires body(0).Raised? && body(1).Returned?
    ensures var a := Execute(RetryPolicy(1, 43), body, elapsed);
      && a.calls == 2
      && |a.delays| == 1
      && a.delays[0] <= 43
      && (0 < elapsed(0) < 3 ==> 40 < a.delays[0] < 43)
      && DisplayNames(a.history) == ["Pending", "Running", "Awaiting Retry", "Running", "Completed"]
  {
    var p := RetryPolicy(1, 43);
    SucceedsOnSecondAttempt(p, body, elapsed);
    DelaysPerRetry(p, body, elapsed);
    ExecuteShape(p, body, elapsed);
  }

  /** Two calls of one task in a fresh flow run get dynamic keys "0" and
      "1". */
  lemma DynamicKeysZeroAndOne(e: Engine, task: Task, flow: nat, a1: Arguments, a2: Arguments, elapsed: nat -> nat)
    requires Valid(e) && Counter(e, flow, task.name) == 0
    ensures var r := LaunchAll(e, task, [Step(flow, a1), Step(flow, a2)], elapsed);
      && r.1[0].runId in r.0.runs && r.0.runs[r.1[0].runId].dynamicKey == "0"
      && r.1[1].runId in r.0.runs && r.0.runs[r.1[1].runId].dynamicKey == "1"
  {
    DynamicKeysInOrder(e, task, flow, [Step(flow, a1), Step(flow, a2)], elapsed);
  }

  /** The first bound argument's value, if it is the only one. */
  function Only(args: Arguments): Option<Value> {
    if |args| == 1 then Some(args[0].1) else None
  }

  /** `foo(x)` returns x. */
  function Foo(): Task {
    Task("foo", [Param("x", None)], RetryPolicy(0, 0), NoCache,
      (args: Arguments) => (i: nat) =>
        if Only(args).Some? then Returned(Only(args).value) else Raised(VNone))
  }

  /** `bar(y)` returns y + 1. */
  function Bar(): Task {
    Task("bar", [Param("y", None)], RetryPolicy(0, 0), NoCache,
      (args: Arguments) => (i: nat) =>
        if Only(args).Some? && Only(args).value.VInt? then Returned(VInt(Only(args).value.i + 1))
        else Raised(VNone))
  }

  /** A single positional argument binds a one-parameter signature. */
  lemma BindOne(name: string, v: Value)
    ensures Bind([Param(name, None)], Call([v], map[])) == Ok([(name, v)])
  {
    var sig, call := [Param(name, None)], Call([v], map[]);
    assert Bindable(sig, call);
    assert Bind(sig, call).value[0] == (name, v);
    assert Bind(sig, call).value == [(name, v)];
  }

  /** A call with one positional argument resolves to the call with that
      argument resolved. */
  lemma ResolveOne(e: Engine, v: Value)
    requires ResolveValue(e, v).Ok?
    ensures ResolveCall(e, Call([v], map[])) == Ok(Call([ResolveValue(e, v).value], map[]))
  {
    var call := Call([v], map[]);
    assert ResolveAll(e, [v]).value == [ResolveValue(e, v).value];
    assert ResolveCall(e, call).value.keywords == map[];
  }

  /** `foo(1)` inside a flow run completes with 1. */
  lemma CallFoo(e: Engine, flow: nat, elapsed: nat -> nat)
    requires Valid(e)
    ensures var r := CallTask(e, Some(FlowContext(flow)), Foo(), Call([VInt(1)], map[]), elapsed);
      && r.Ok?
      && Valid(r.value.engine)
      && Wait(r.value.engine, r.value.future) == Ok(Completed(VInt(1)))
  {
    ResolveOne(e, VInt(1));
    BindOne("x", VInt(1));
    LaunchRecordsRun(e, flow, Foo(), [("x", VInt(1))], elapsed);
    LaunchEndsAsBodyDid(e, flow, Foo(), [("x", VInt(1))], elapsed);
    LaunchedFutureResolves(e, flow, Foo(), [("x", VInt(1))], elapsed);
  }

  /** `bar` called with a future of a run that completed with 1 completes
      with 2. */
  lemma CallBar(e: Engine, flow: nat, id: nat, elapsed: nat -> nat)
    requires Valid(e)
    requires Wait(e, Future(id)) == Ok(Completed(VInt(1)))
    ensures var r := CallTask(e, Some(FlowContext(flow)), Bar(), Call([VFuture(id)], map[]), elapsed);
      && r.Ok?
      && Wait(r.value.engine, r.value.future) == Ok(Completed(VInt(2)))
  {
    assert ResolveValue(e, VFuture(id)) == Ok(VInt(1));
    ResolveOne(e, VFuture(id));
    BindOne("y", VInt(1));
    LaunchRecordsRun(e, flow, Bar(), [("y", VInt(1))], elapsed);
    LaunchEndsAsBodyDid(e, flow, Bar(), [("y", VInt(1))], elapsed);
    LaunchedFutureResolves(e, flow, Bar(), [("y", VInt(1))], elapsed);
  }

  /** Passing the future of `foo(1)` to `bar` hands bar the value 1, so
      `bar(foo(1))` completes with 2. */
  lemma ChainedCall(e: Engine, flow: nat, elapsed: nat -> nat)
    requires Valid(e)
    ensures var ctx := Some(FlowContext(flow));
      var r1 := CallTask(e, ctx, Foo(), Call([VInt(1)], map[]), elapsed);
      && r1.Ok?
      && var r2 := CallTask(r1.value.engine, ctx, Bar(), Call([VFuture(r1.value.future.runId)], map[]), elapsed);
      && r2.Ok?
      && Wait(r2.value.engine, r2.value.future) == Ok(Completed(VInt(2)))
  {
    CallFoo(e, flow, elapsed);
    var r1 := CallTask(e, Some(FlowContext(flow)), Foo(), Call([VInt(1)], map[]), elapsed);
    CallBar(r1.value.engine, flow, r1.value.future.runId, elapsed);
  }

  /** Called outside a flow run, a task fails at once. */
  lemma OutsideFlowFails(e: Engine, task: Task, call: Call, elapsed: nat -> nat)
    ensures CallTask(e, None, task, call, elapsed) == Err(CalledOutsideFlow)
  {
  }

  // ---------------------------------------------------------------------
  // Argument binding

  function Abc(): Signature {
    [Param("a", None), Param("b", None), Param("c", Some(VInt(3)))]
  }

  /** `f(1, 2, 3)`, `f(1, b=2)` with default `c=3`, and `f(c=3, a=1, b=2)`
      all bind to a=1, b=2, c=3. */
  lemma ThreeCallStyles()
    ensures Bind(Abc(), Call([VInt(1), VInt(2), VInt(3)], map[]))
         == Ok([("a", VInt(1)), ("b", VInt(2)), ("c", VInt(3))])
    ensures Bind(Abc(), Call([VInt(1)], map["b" := VInt(2)]))
         == Ok([("a", VInt(1)), ("b", VInt(2)), ("c", VInt(3))])
    ensures Bind(Abc(), Call([], map["c" := VInt(3), "a" := VInt(1), "b" := VInt(2)]))
         == Ok([("a", VInt(1)), ("b", VInt(2)), ("c", VInt(3))])
  {
    var sig := Abc();
    var m := [("a", VInt(1)), ("b", VInt(2)), ("c", VInt(3))];
    assert Names(sig) == {"a", "b", "c"} by {
      assert sig[0].name == "a" && sig[1].name == "b" && sig[2].name == "c";
    }
    var c1 := Call([VInt(1), VInt(2), VInt(3)], map[]);
    var c2 := Call([VInt(1)], map["b" := VInt(2)]);
    var c3 := Call([], map["c" := VInt(3), "a" := VInt(1), "b" := VInt(2)]);
    assert Bindable(sig, c1) && Bindable(sig, c2) && Bindable(sig, c3);
    assert Bind(sig, c1).value == m;
    assert Bind(sig, c2).value == m;
    assert Bind(sig, c3).value == m;
  }

  // ---------------------------------------------------------------------
  // Experimental features

  /** The TEST group with warnings on and opt-in off. */
  function TestSettings(enabled: bool): Settings {
    Settings(true, map[WarnSettingName("TEST") := true, EnableSettingName("TEST") := enabled])
  }

  /** The TEST settings warn, and opt in exactly when `enabled`. */
  lemma TestWarnSettingOn(enabled: bool)
    ensures TestSettings(enabled).warn && TestSettings(enabled).values[WarnSettingName("TEST")]
    ensures TestSettings(enabled).values[EnableSettingName("TEST")] == enabled
  {
    SettingNamesDistinct("TEST", "TEST");
  }

  lemma TestGroupNames()
    ensures WarnSettingName("TEST") == "PREFECT_EXPERIMENTAL_WARN_" + "TEST"
    ensures EnableSettingName("TEST") == "PREFECT_EXPERIMENTAL_ENABLE_" + "TEST"
    ensures EnableSettingName("test") == "PREFECT_EXPERIMENTAL_ENABLE_" + "TEST"
  {
    UpperKeepsUpperCase("TEST");
    assert Upper("test") == "TEST" by {
      assert forall i :: 0 <= i < 4 ==> Upper("test")[i] == "TEST"[i];
    }
  }

  // The expected texts below are written as the pieces the messages are
  // assembled from, bracketed as they are assembled; joined, they are the
  // texts the marked features report.

  lemma TestWarningTail()
    ensures WarningTail("TEST")
      == "To disable warnings for this group of experiments, disable " + ("PREFECT_EXPERIMENTAL_WARN_" + "TEST") + "."
  {
    TestGroupNames();
  }

  lemma TestWarning(feature: string)
    ensures WarningMessage(feature, "This is just a test, don't worry.", "TEST")
      == (feature + " is experimental. ")
       + (("This is just a test, don't worry." + " ")
          + "The interface or behavior may change without warning, we recommend pinning versions to prevent unexpected changes. ")
       + ("To disable warnings for this group of experiments, disable " + ("PREFECT_EXPERIMENTAL_WARN_" + "TEST") + ".")
  {
    TestWarningTail();
  }

  /** The warning for a marked function with help. */
  lemma WarningText()
    ensures WarningMessage("A test function", "This is just a test, don't worry.", "TEST")
      == ("A test function" + " is experimental. ")
       + (("This is just a test, don't worry." + " ")
          + "The interface or behavior may change without warning, we recommend pinning versions to prevent unexpected changes. ")
       + ("To disable warnings for this group of experiments, disable " + ("PREFECT_EXPERIMENTAL_WARN_" + "TEST") + ".")
  {
    TestWarning("A test function");
  }

  /** The warning for a marked function without help. */
  lemma WarningTextWithoutHelp()
    ensures WarningMessage("A test function", "", "TEST")
      == ("A test function" + " is experimental. ")
       + "The interface or behavior may change without warning, we recommend pinning versions to prevent unexpected changes. "
       + ("To disable warnings for this group of experiments, disable " + ("PREFECT_EXPERIMENTAL_WARN_" + "TEST") + ".")
  {
    TestWarningTail();
    assert WarningBody("") == Caution;
  }

  /** The refusal of an opt-in function whose group is not enabled. */
  lemma DisabledText()
    ensures Check(TestSettings(false), Marker("TEST", "A test function", "This is just a test, don't worry.", true))
      == Refused(("A test function" + " is experimental and requires opt-in for usage. ")
               + ("This is just a test, don't worry." + " ")
               + ("To use this feature, enable " + ("PREFECT_EXPERIMENTAL_ENABLE_" + "TEST") + "."))
  {
    TestGroupNames();
  }

  /** `experiment_enabled` reads the group's opt-in setting, and refuses a
      group that has none, quoting the group as given. */
  lemma ExperimentEnabledCases()
    ensures ExperimentEnabled(TestSettings(true), "test") == Ok(true)
    ensures ExperimentEnabled(TestSettings(false), "test") == Ok(false)
    ensures ExperimentEnabled(TestSettings(false), "foo")
      == Err(("A " + "opt-in" + " setting for experimental feature '" + "foo" + "'")
           + (" does not exist yet. '" + ("PREFECT_EXPERIMENTAL_ENABLE_" + "FOO")
              + "' must be created before the group can be used."))
  {
    TestGroupNames();
    assert Upper("foo") == "FOO" by {
      assert forall i :: 0 <= i < 3 ==> Upper("foo")[i] == "FOO"[i];
    }
    SettingNamesDistinct("foo", "TEST");
    SettingNamesDistinct("TEST", "foo");
    assert EnableSettingName("foo") == "PREFECT_EXPERIMENTAL_ENABLE_" + "FOO";
  }

  /** A group with no settings cannot be used to mark a feature; with opt-in
      requested, the missing opt-in setting is the one reported. */
  lemma UnknownGroupMarking()
    ensures Mark(TestSettings(false), "ANOTHER_GROUP", "A test feature", "", false)
      == Err(("A " + "warn" + " setting for experimental feature '" + "ANOTHER_GROUP" + "'")
           + (" does not exist yet. '" + ("PREFECT_EXPERIMENTAL_WARN_" + "ANOTHER_GROUP")
              + "' must be created before the group can be used."))
    ensures Mark(TestSettings(false), "ANOTHER_GROUP", "A test feature", "", true)
      == Err(("A " + "opt-in" + " setting for experimental feature '" + "ANOTHER_GROUP" + "'")
           + (" does not exist yet. '" + ("PREFECT_EXPERIMENTAL_ENABLE_" + "ANOTHER_GROUP")
              + "' must be created before the group can be used."))
  {
    AnotherGroupNames(false);
  }

  /** ANOTHER_GROUP names its settings after itself, and the TEST settings
      hold neither of them. */
  lemma AnotherGroupNames(enabled: bool)
    ensures WarnSettingName("ANOTHER_GROUP") == "PREFECT_EXPERIMENTAL_WARN_" + "ANOTHER_GROUP"
    ensures EnableSettingName("ANOTHER_GROUP") == "PREFECT_EXPERIMENTAL_ENABLE_" + "ANOTHER_GROUP"
    ensures WarnSettingName("ANOTHER_GROUP") !in TestSettings(enabled).values
    ensures EnableSettingName("ANOTHER_GROUP") !in TestSettings(enabled).values
  {
    UpperKeepsUpperCase("ANOTHER_GROUP");
    UpperKeepsUpperCase("TEST");
    assert "ANOTHER_GROUP" != "TEST";
    SettingNamesDistinct("ANOTHER_GROUP", "TEST");
    SettingNamesDistinct("TEST", "ANOTHER_GROUP");
  }

  /** `foo(return_value: int = 1)` with `return_value` marked. */
  function ReturnValueSig(): Signature {
    [Param("return_value", Some(VInt(1)))]
  }

  /** `return_value` marked in the TEST group with the test's help. */
  function ReturnValueMarker(when: Value -> bool, optIn: bool): (p: ParameterMarker)
    ensures p.name == "return_value"
    ensures p.marker == Marker("TEST", ParameterFeature("return_value"), "This is just a test, don't worry.", optIn)
    ensures forall v :: p.when(v) == when(v)
  {
    var r := MarkParameter(TestSettings(false), "return_value", "TEST", "This is just a test, don't worry.", optIn, Some(when));
    assert r.Ok?;
    r.value
  }

  /** `return_value` is passed explicitly by keyword or by position, and
      not when left to its default. */
  lemma ReturnValuePassed(v: Value)
    ensures ExplicitValue(ReturnValueSig(), Call([], map["return_value" := v]), "return_value") == Some(v)
    ensures ExplicitValue(ReturnValueSig(), Call([v], map[]), "return_value") == Some(v)
    ensures ExplicitValue(ReturnValueSig(), Call([], map[]), "return_value") == None
  {
    assert IndexOf(ReturnValueSig(), "return_value") == Some(0);
  }

  /** The marked parameter warns when passed by keyword or by position, and
      never when left to its default. */
  lemma ParameterGateCases()
    ensures var p := ReturnValueMarker((v: Value) => true, false);
      && CheckParameter(TestSettings(false), p, ReturnValueSig(), Call([], map["return_value" := VInt(2)])).warning.Some?
      && CheckParameter(TestSettings(false), p, ReturnValueSig(), Call([VInt(1)], map[])).warning.Some?
      && CheckParameter(TestSettings(false), p, ReturnValueSig(), Call([], map[])) == Proceed(None)
  {
    var p := ReturnValueMarker((v: Value) => true, false);
    ReturnValuePassed(VInt(2));
    ReturnValuePassed(VInt(1));
    TestWarnSettingOn(false);
    ParameterWarnsIff(TestSettings(false), p, ReturnValueSig(), Call([], map["return_value" := VInt(2)]));
    ParameterWarnsIff(TestSettings(false), p, ReturnValueSig(), Call([VInt(1)], map[]));
  }

  /** With `when` accepting only 3, the parameter warns only when passed
      with the value 3. */
  lemma ParameterWhenCases()
    ensures var p := ReturnValueMarker((v: Value) => v == VInt(3), false);
      && CheckParameter(TestSettings(false), p, ReturnValueSig(), Call([], map[])) == Proceed(None)
      && CheckParameter(TestSettings(false), p, ReturnValueSig(), Call([], map["return_value" := VInt(2)])) == Proceed(None)
      && CheckParameter(TestSettings(false), p, ReturnValueSig(), Call([], map["return_value" := VInt(3)])).warning.Some?
  {
    ReturnValuePassed(VInt(2));
    ReturnValuePassed(VInt(3));
  }

  /** An opt-in parameter passed while its group is not enabled is refused. */
  lemma OptInParameterRefused()
    ensures var p := ReturnValueMarker((v: Value) => true, true);
      var r := InvokeParameter(TestSettings(false), p, ReturnValueSig(), Call([], map["return_value" := VInt(1)]));
      && r.Err? && r.error.FeatureDisabled?
      && r.error.message == DisabledMessage(ParameterFeature("return_value"), "This is just a test, don't worry.", "TEST")
  {
    ReturnValuePassed(VInt(1));
  }

  /** An unknown keyword passes the gate, since the marked parameter is not
      passed, and the call fails with its own binding error. */
  lemma BadCallKeepsBindingError()
    ensures InvokeParameter(TestSettings(true), ReturnValueMarker((v: Value) => true, false), ReturnValueSig(),
        Call([], map["z" := VInt(3)]))
      == Err(BadCall(UnexpectedKeywords({"z"})))
  {
    var call := Call([], map["z" := VInt(3)]);
    assert Names(ReturnValueSig()) == {"return_value"} by {
      assert ReturnValueSig()[0].name == "return_value";
    }
    assert "z" != "return_value";
    assert IndexOf(ReturnValueSig(), "return_value") == Some(0);
    assert ExplicitValue(ReturnValueSig(), call, "return_value") == None;
    assert call.keywords.Keys - Names(ReturnValueSig()) == {"z"};
  }

  /** The warning for a marked parameter names it. */
  lemma ParameterWarningText()
    ensures WarningMessage(ParameterFeature("return_value"), "This is just a test, don't worry.", "TEST")
      == (("The parameter '" + "return_value" + "'") + " is experimental. ")
       + (("This is just a test, don't worry." + " ")
          + "The interface or behavior may change without warning, we recommend pinning versions to prevent unexpected changes. ")
       + ("To disable warnings for this group of experiments, disable " + ("PREFECT_EXPERIMENTAL_WARN_" + "TEST") + ".")
  {
    TestWarning(ParameterFeature("return_value"));
  }
}

=== FILE: states.dfy ===
/**
 The run state machine.

 A run (of a task or of a flow) moves through the states Pending, Running,
 Awaiting Retry, Completed, Failed and Cached. Its history is the append-only
 sequence of every state it entered. The allowed edges are

   Pending -> Running,  Pending -> Cached,
   Running -> Awaiting Retry,  Awaiting Retry -> Running,
   Running -> Completed,  Running -> Failed,

 and the three terminal states (Completed, Failed, Cached) have none.
 */
module States {
  import opened Results
  import opened Values

  /** A run state. The terminal states carry the run's data: the returned
      value, the raised error, or the value served from the cache. */
  datatype State =
    | Pending
    | Running
    | AwaitingRetry
    | Completed(data: Value)
    | Failed(data: Value)
    | Cached(data: Value)
  {
    predicate IsTerminal() {
      Completed? || Failed? || Cached?
    }

    /** The display name the run record store reports. */
    function Name(): string {
      match this
      case Pending => "Pending"
      case Running => "Running"
      case AwaitingRetry => "Awaiting Retry"
      case Completed(_) => "Completed"
      case Failed(_) => "Failed"
      case Cached(_) => "Cached"
    }
  }

  /** The transition table. */
  predicate Allowed(from: State, to: State) {
    match from
    case Pending => to.Running? || to.Cached?
    case Running => to.AwaitingRetry? || to.Completed? || to.Failed?
    case AwaitingRetry => to.Running?
    case _ => false
  }

  /** A history the state machine can produce: it starts in Pending and every
      step follows an allowed edge. */
  predicate ValidHistory(h: seq<State>) {
    && |h| >= 1
    && h[0] == Pending
    && forall i :: 0 <= i < |h| - 1 ==> Allowed(h[i], h[i + 1])
  }

  /** The run has reached a terminal state. */
  predicate Finished(h: seq<State>) {
    |h| >= 1 && h[|h| - 1].IsTerminal()
  }

  function Last(h: seq<State>): State
    requires |h| >= 1
  {
    h[|h| - 1]
  }

  datatype TransitionError = InvalidTransition(from: State, to: State)

  /** Appends `s` to a run's history, refusing a run that is already terminal
      and any edge outside the table. */
  function Transition(h: seq<State>, s: State): (r: Result<seq<State>, TransitionError>)
    requires |h| >= 1
    ensures r.Ok? ==> |r.value| == |h| + 1 && r.value[..|h|] == h && r.value[|h|] == s
    ensures r.Err? ==> r.error == InvalidTransition(Last(h), s)
    ensures Last(h).IsTerminal() ==> r.Err?
  {
    if Last(h).IsTerminal() then Err(InvalidTransition(Last(h), s))
    else if !Allowed(Last(h), s) then Err(InvalidTransition(Last(h), s))
    else Ok(h + [s])
  }

  /** `Transition` accepts exactly the steps that keep a history valid: on a
      valid history it succeeds if and only if the extended history is valid. */
  lemma TransitionKeepsValid(h: seq<State>, s: State)
    requires ValidHistory(h)
    ensures Transition(h, s).Ok? <==> ValidHistory(h + [s])
    ensures Transition(h, s).Ok? ==> Transition(h, s).value == h + [s]
  {
    var h' := h + [s];
    if ValidHistory(h') {
      assert Allowed(h'[|h| - 1], h'[|h|]);
    }
    if Transition(h, s).Ok? {
      forall i | 0 <= i < |h'| - 1
        ensures Allowed(h'[i], h'[i + 1])
      {
        if i < |h| - 1 {
          assert h'[i] == h[i] && h'[i + 1] == h[i + 1];
        }
      }
    }
  }

  /** Nothing follows a terminal state: a terminal state can only be the last
      entry of a valid history. */
  lemma TerminalIsLast(h: seq<State>, i: nat)
    requires ValidHistory(h)
    requires i < |h| && h[i].IsTerminal()
    ensures i == |h| - 1
  {
    if i < |h| - 1 {
      StepAllowed(h, i);
      assert false;
    }
  }

  lemma StepAllowed(h: seq<State>, i: nat)
    requires ValidHistory(h) && i < |h| - 1
    ensures Allowed(h[i], h[i + 1])
  {
  }

  /** `j` rounds of a failed attempt being retried: Awaiting Retry, Running. */
  function Cycles(j: nat): (c: seq<State>)
    ensures |c| == 2 * j
    ensures forall i :: 0 <= i < |c| ==> c[i] == (if i % 2 == 0 then AwaitingRetry else Running)
  {
    if j == 0 then [] else Cycles(j - 1) + [AwaitingRetry, Running]
  }

  /** The history of a run that made `k` attempts and ended in `last`:
      Pending, Running, then (Awaiting Retry, Running) for each of the k - 1
      retries, then the terminal state. */
  function RetryHistory(k: nat, last: State): seq<State>
    requires k >= 1
  {
    [Pending, Running] + Cycles(k - 1) + [last]
  }

  /** The pattern followed by the non-terminal entries after Pending. */
  function Between(i: nat): State {
    if i % 2 == 1 then Running else AwaitingRetry
  }

  lemma RetryHistoryAt(k: nat, last: State)
    requires k >= 1
    ensures |RetryHistory(k, last)| == 2 * k + 1
    ensures RetryHistory(k, last)[0] == Pending
    ensures forall i :: 1 <= i < 2 * k ==> RetryHistory(k, last)[i] == Between(i)
    ensures RetryHistory(k, last)[2 * k] == last
  {
    var h := RetryHistory(k, last);
    forall i | 1 <= i < 2 * k
      ensures h[i] == Between(i)
    {
      if i >= 2 {
        assert h[i] == Cycles(k - 1)[i - 2];
      }
    }
  }

  /** Every retry history ending in Completed or Failed is a finished, valid
      history, 2k + 1 entries long. */
  lemma {:induction false} RetryHistoryValid(k: nat, last: State)
    requires k >= 1
    requires last.Completed? || last.Failed?
    ensures ValidHistory(RetryHistory(k, last))
    ensures Finished(RetryHistory(k, last))
    ensures |RetryHistory(k, last)| == 2 * k + 1
  {
    var h := RetryHistory(k, last);
    RetryHistoryAt(k, last);
    forall i | 0 <= i < |h| - 1
      ensures Allowed(h[i], h[i + 1])
    {
      if i == 0 {
      } else if i + 1 == |h| - 1 {
        assert h[i] == Running;
      } else {
        assert h[i] == Between(i) && h[i + 1] == Between(i + 1);
      }
    }
  }

  /** A cache hit's history is a finished, valid history. */
  lemma CachedHistoryValid(d: Value)
    ensures ValidHistory([Pending, Cached(d)]) && Finished([Pending, Cached(d)])
  {
  }

  lemma {:induction false} FollowsPattern(h: seq<State>, j: nat)
    requires ValidHistory(h) && |h| >= 2 && h[1] == Running
    requires 1 <= j < |h| && !h[j].IsTerminal()
    ensures h[j] == Between(j)
    decreases j
  {
    if j > 1 {
      assert !h[j - 1].IsTerminal() by {
        if h[j - 1].IsTerminal() {
          TerminalIsLast(h, j - 1);
        }
      }
      FollowsPattern(h, j - 1);
      assert Allowed(h[j - 1], h[j]);
    }
  }

  /** The converse of `RetryHistoryValid` and `CachedHistoryValid`: every
      finished valid history is either a cache hit, Pending then Cached, or a
      retry history of some k attempts ending in Completed or Failed. */
  lemma FinishedHistoryShape(h: seq<State>)
    requires ValidHistory(h) && Finished(h)
    ensures
      || (|h| == 2 && h[1].Cached?)
      || (&& |h| % 2 == 1 && |h| >= 3
          && (Last(h).Completed? || Last(h).Failed?)
          && h == RetryHistory((|h| - 1) / 2, Last(h)))
  {
    var n := |h|;
    assert n >= 2 by {
      if n == 1 {
        assert h[0] == Pending;
      }
    }
    assert Allowed(h[0], h[1]);
    if h[1].Cached? {
      TerminalIsLast(h, 1);
    } else {
      assert h[1] == Running;
      forall j | 1 <= j < n - 1
        ensures h[j] == Between(j)
      {
        assert !h[j].IsTerminal() by {
          if h[j].IsTerminal() {
            TerminalIsLast(h, j);
          }
        }
        FollowsPattern(h, j);
      }
      assert h[n - 2] == Running by {
        if n - 2 >= 1 {
          assert Allowed(h[n - 2], h[n - 1]);
        }
      }
      assert n % 2 == 1 by {
        if n - 2 >= 1 {
          assert h[n - 2] == Between(n - 2);
        }
      }
      assert Allowed(h[n - 2], h[n - 1]);
      var k := (n - 1) / 2;
      RetryHistoryAt(k, Last(h));
      var r := RetryHistory(k, Last(h));
      assert |r| == n;
      forall i | 0 <= i < n
        ensures h[i] == r[i]
      {
        if 1 <= i < n - 1 {
          assert r[i] == Between(i);
        }
      }
    }
  }

  /** The display names of a history, as the run record store lists them. */
  function DisplayNames(h: seq<State>): (names: seq<string>)
    ensures |names| == |h|
    ensures forall i :: 0 <= i < |h| ==> names[i] == h[i].Name()
  {
    if |h| == 0 then [] else DisplayNames(h[..|h| - 1]) + [h[|h| - 1].Name()]
  }

  /** Display names tell the kinds apart. */
  lemma NamesDistinguishKinds(s: State, t: State)
    requires s.Name() == t.Name()
    ensures s.Pending? == t.Pending? && s.Running? == t.Running?
    ensures s.AwaitingRetry? == t.AwaitingRetry? && s.Completed? == t.Completed?
    ensures s.Failed? == t.Failed? && s.Cached? == t.Cached?
  {
  }
}

=== FILE: values.dfy ===
/**
 Runtime values passed to and returned by tasks, and their canonical text
 rendering.

 The rendering serves two purposes: `Digits` is `str(n)` for a natural number
 (the dynamic key of the n-th call), and `Render`/`InputHash` turn a bound
 argument mapping into a cache key. The rendering is length-prefixed, so it is
 injective: two different argument mappings never share a key.
 */
module Values {

  /** A value a task receives or produces. An exception object raised by a
      task body is a `VError`; a handle to another run is a `VFuture`. */
  datatype Value =
    | VNone
    | VBool(b: bool)
    | VInt(i: int)
    | VStr(s: string)
    | VError(kind: string, message: string)
    | VFuture(runId: nat)

  /** Bound arguments: parameter names with their values, in signature order. */
  type Arguments = seq<(string, Value)>

  predicate IsDigit(c: char) {
    '0' <= c <= '9'
  }

  function DigitChar(d: nat): (c: char)
    requires d < 10
    ensures IsDigit(c) && DigitValue(c) == d
  {
    ('0' as int + d) as char
  }

  /** The number a decimal digit stands for. */
  function DigitValue(c: char): nat
    requires IsDigit(c)
  {
    c as int - '0' as int
  }

  /** The number a text of decimal digits denotes, read in positional
      notation: each digit is worth ten times the digit to its right. */
  function DecimalValue(s: string): nat
    requires forall i :: 0 <= i < |s| ==> IsDigit(s[i])
  {
    if |s| == 0 then 0 else 10 * DecimalValue(s[..|s| - 1]) + DigitValue(s[|s| - 1])
  }

  /** The decimal text of `n`, as Python's `str(n)`: digits that denote `n`,
      with no leading zero. */
  function Digits(n: nat): (s: string)
    ensures |s| >= 1
    ensures forall i :: 0 <= i < |s| ==> IsDigit(s[i])
    ensures DecimalValue(s) == n
    ensures n >= 1 ==> s[0] != '0'
    ensures n >= 10 ==> |s| >= 2
  {
    if n < 10 then
      var s := [DigitChar(n)];
      assert s[..0] == [];
      s
    else
      var init := Digits(n / 10);
      var s := init + [DigitChar(n % 10)];
      assert s[..|s| - 1] == init;
      s
  }

  /** A text of decimal digits as `str` writes it: at least one digit, and
      no leading zero unless the text is "0". */
  predicate Canonical(s: string) {
    && |s| >= 1
    && (forall i :: 0 <= i < |s| ==> IsDigit(s[i]))
    && (|s| > 1 ==> s[0] != '0')
  }

  lemma {:induction false} LeadingDigitPositive(s: string)
    requires |s| >= 1 && forall i :: 0 <= i < |s| ==> IsDigit(s[i])
    requires s[0] != '0'
    ensures DecimalValue(s) >= 1
    decreases |s|
  {
    if |s| > 1 {
      var init := s[..|s| - 1];
      assert init[0] == s[0];
      LeadingDigitPositive(init);
    }
  }

  /** Every canonical digit text is the decimal text of the number it
      denotes, so `Digits` and `DecimalValue` are inverse bijections between
      the naturals and the canonical texts. */
  lemma {:induction false} DigitsOfDecimalValue(s: string)
    requires Canonical(s)
    ensures Digits(DecimalValue(s)) == s
    decreases |s|
  {
    var c := s[|s| - 1];
    if |s| == 1 {
      assert DecimalValue(s[..0]) == 0;
      assert DigitChar(DigitValue(c)) == c;
    } else {
      var init := s[..|s| - 1];
      assert init[0] == s[0];
      LeadingDigitPositive(init);
      DigitsOfDecimalValue(init);
      var n := DecimalValue(s);
      assert n / 10 == DecimalValue(init) && n % 10 == DigitValue(c);
      assert DigitChar(DigitValue(c)) == c;
      assert s == init + [c];
    }
  }

  /** Different numbers have different decimal texts. */
  lemma {:induction false} DigitsInjective(a: nat, b: nat)
    requires Digits(a) == Digits(b)
    ensures a == b
    decreases a
  {
    if a < 10 && b < 10 {
      assert Digits(a)[0] == DigitChar(a);
      assert Digits(b)[0] == DigitChar(b);
    } else if a >= 10 && b >= 10 {
      var da, db := Digits(a), Digits(b);
      assert da[..|da| - 1] == Digits(a / 10);
      assert db[..|db| - 1] == Digits(b / 10);
      DigitsInjective(a / 10, b / 10);
      assert da[|da| - 1] == DigitChar(a % 10);
      assert db[|db| - 1] == DigitChar(b % 10);
    }
  }

  /** Two strings that agree after a common-length prefix split into equal halves. */
  lemma SplitAt(a: string, r1: string, b: string, r2: string)
    requires a + r1 == b + r2
    requires |a| == |b|
    ensures a == b && r1 == r2
  {
    assert a == (a + r1)[..|a|];
    assert b == (b + r2)[..|b|];
    assert r1 == (a + r1)[|a|..];
    assert r2 == (b + r2)[|b|..];
  }

  /** A decimal number followed by a non-digit delimiter is self-delimiting:
      the number, the delimiter and whatever follows are all recovered. */
  lemma DigitsDelimited(a: nat, c: char, r1: string, b: nat, d: char, r2: string)
    requires !IsDigit(c) && !IsDigit(d)
    requires Digits(a) + [c] + r1 == Digits(b) + [d] + r2
    ensures a == b && c == d && r1 == r2
  {
    DigitRunDelimited(Digits(a), c, r1, Digits(b), d, r2);
    DigitsInjective(a, b);
  }

  /** A run of digits ended by a non-digit splits off unambiguously. */
  lemma DigitRunDelimited(da: string, c: char, r1: string, db: string, d: char, r2: string)
    requires forall i :: 0 <= i < |da| ==> IsDigit(da[i])
    requires forall i :: 0 <= i < |db| ==> IsDigit(db[i])
    requires !IsDigit(c) && !IsDigit(d)
    requires da + [c] + r1 == db + [d] + r2
    ensures da == db && c == d && r1 == r2
  {
    var x := da + [c] + r1;
    assert x == db + [d] + r2;
    assert x[|da|] == c && x[|db|] == d;
    assert forall i :: 0 <= i < |da| ==> x[i] == da[i];
    assert forall i :: 0 <= i < |db| ==> x[i] == db[i];
    assert |da| == |db|;
    assert da + [c] + r1 == da + ([c] + r1);
    assert db + [d] + r2 == db + ([d] + r2);
    SplitAt(da, [c] + r1, db, [d] + r2);
    SplitAt([c], r1, [d], r2);
  }

  /** A string prefixed by its length, so that it delimits itself. */
  function EncodeText(s: string): string {
    Digits(|s|) + ":" + s
  }

  lemma EncodeTextUnique(s1: string, r1: string, s2: string, r2: string)
    requires EncodeText(s1) + r1 == EncodeText(s2) + r2
    ensures s1 == s2 && r1 == r2
  {
    assert EncodeText(s1) + r1 == Digits(|s1|) + [':'] + (s1 + r1);
    assert EncodeText(s2) + r2 == Digits(|s2|) + [':'] + (s2 + r2);
    DigitsDelimited(|s1|, ':', s1 + r1, |s2|, ':', s2 + r2);
    SplitAt(s1, r1, s2, r2);
  }

  /** The first character of a rendered value names its constructor (and, for
      booleans and integers, its truth value or sign). */
  function Tag(v: Value): char {
    match v
    case VNone => 'N'
    case VBool(b) => if b then 'T' else 'F'
    case VInt(i) => if i < 0 then '-' else '+'
    case VStr(_) => 'S'
    case VError(_, _) => 'E'
    case VFuture(_) => 'R'
  }

  function Payload(v: Value): string {
    match v
    case VNone => ""
    case VBool(_) => ""
    case VInt(i) => (if i < 0 then Digits(-i) else Digits(i)) + ";"
    case VStr(s) => EncodeText(s)
    case VError(k, m) => EncodeText(k) + EncodeText(m)
    case VFuture(id) => Digits(id) + ";"
  }

  function EncodeValue(v: Value): string {
    [Tag(v)] + Payload(v)
  }

  /** Rendered values are prefix-free: a rendering followed by anything
      determines both the value and the rest. */
  lemma EncodeValueUnique(v1: Value, r1: string, v2: Value, r2: string)
    requires EncodeValue(v1) + r1 == EncodeValue(v2) + r2
    ensures v1 == v2 && r1 == r2
  {
    EncodeValueSplit(v1, r1);
    EncodeValueSplit(v2, r2);
    SplitAt([Tag(v1)], Payload(v1) + r1, [Tag(v2)], Payload(v2) + r2);
    PayloadUnique(v1, r1, v2, r2);
  }

  lemma EncodeValueSplit(v: Value, r: string)
    ensures EncodeValue(v) + r == [Tag(v)] + (Payload(v) + r)
  {
  }

  lemma PayloadUnique(v1: Value, r1: string, v2: Value, r2: string)
    requires Tag(v1) == Tag(v2)
    requires Payload(v1) + r1 == Payload(v2) + r2
    ensures v1 == v2 && r1 == r2
  {
    if v1.VNone? || v1.VBool? {
      assert Payload(v1) + r1 == r1 && Payload(v2) + r2 == r2;
    } else if v1.VInt? {
      assert v2.VInt? && (v1.i < 0 <==> v2.i < 0);
      NumberPayloadUnique(if v1.i < 0 then -v1.i else v1.i, r1, if v2.i < 0 then -v2.i else v2.i, r2);
    } else if v1.VStr? {
      assert v2.VStr?;
      EncodeTextUnique(v1.s, r1, v2.s, r2);
    } else if v1.VError? {
      assert v2.VError?;
      ErrorPayloadUnique(v1.kind, v1.message, r1, v2.kind, v2.message, r2);
    } else {
      assert v1.VFuture? && v2.VFuture?;
      NumberPayloadUnique(v1.runId, r1, v2.runId, r2);
    }
  }

  lemma ErrorPayloadUnique(k1: string, m1: string, r1: string, k2: string, m2: string, r2: string)
    requires EncodeText(k1) + EncodeText(m1) + r1 == EncodeText(k2) + EncodeText(m2) + r2
    ensures k1 == k2 && m1 == m2 && r1 == r2
  {
    assert EncodeText(k1) + EncodeText(m1) + r1 == EncodeText(k1) + (EncodeText(m1) + r1);
    assert EncodeText(k2) + EncodeText(m2) + r2 == EncodeText(k2) + (EncodeText(m2) + r2);
    EncodeTextUnique(k1, EncodeText(m1) + r1, k2, EncodeText(m2) + r2);
    EncodeTextUnique(m1, r1, m2, r2);
  }

  lemma NumberPayloadUnique(a: nat, r1: string, b: nat, r2: string)
    requires Digits(a) + ";" + r1 == Digits(b) + ";" + r2
    ensures a == b && r1 == r2
  {
    DigitsDelimited(a, ';', r1, b, ';', r2);
  }

  function EncodeItems(args: Arguments): string {
    if |args| == 0 then ""
    else EncodeText(args[0].0) + EncodeValue(args[0].1) + EncodeItems(args[1..])
  }

  lemma {:induction false} EncodeItemsUnique(a1: Arguments, r1: string, a2: Arguments, r2: string)
    requires |a1| == |a2|
    requires EncodeItems(a1) + r1 == EncodeItems(a2) + r2
    ensures a1 == a2 && r1 == r2
    decreases |a1|
  {
    if |a1| > 0 {
      EncodeItemsHead(a1, r1, a2, r2);
      EncodeItemsUnique(a1[1..], r1, a2[1..], r2);
      assert a1 == [a1[0]] + a1[1..];
      assert a2 == [a2[0]] + a2[1..];
    } else {
      assert EncodeItems(a1) + r1 == r1;
      assert EncodeItems(a2) + r2 == r2;
    }
  }

  /** The first items of two equal renderings agree, and so do the rests. */
  lemma EncodeItemsHead(a1: Arguments, r1: string, a2: Arguments, r2: string)
    requires |a1| > 0 && |a2| > 0
    requires EncodeItems(a1) + r1 == EncodeItems(a2) + r2
    ensures a1[0] == a2[0] && EncodeItems(a1[1..]) + r1 == EncodeItems(a2[1..]) + r2
  {
    var t1 := EncodeValue(a1[0].1) + (EncodeItems(a1[1..]) + r1);
    var t2 := EncodeValue(a2[0].1) + (EncodeItems(a2[1..]) + r2);
    EncodeItemsCons(a1, r1);
    EncodeItemsCons(a2, r2);
    EncodeTextUnique(a1[0].0, t1, a2[0].0, t2);
    EncodeValueUnique(a1[0].1, EncodeItems(a1[1..]) + r1, a2[0].1, EncodeItems(a2[1..]) + r2);
  }

  lemma EncodeItemsCons(a: Arguments, r: string)
    requires |a| > 0
    ensures EncodeItems(a) + r
      == EncodeText(a[0].0) + (EncodeValue(a[0].1) + (EncodeItems(a[1..]) + r))
  {
    var x, y, z := EncodeText(a[0].0), EncodeValue(a[0].1), EncodeItems(a[1..]);
    assert EncodeItems(a) == x + y + z;
    Associate(x, y, z, r);
  }

  lemma Associate(x: string, y: string, z: string, r: string)
    ensures x + y + z + r == x + (y + (z + r))
  {
  }

  /** The text of a bound argument mapping (Python's `str(args)`). */
  function Render(args: Arguments): string {
    Digits(|args|) + ":" + EncodeItems(args)
  }

  /** Different argument mappings render differently. */
  lemma RenderInjective(a1: Arguments, a2: Arguments)
    requires Render(a1) == Render(a2)
    ensures a1 == a2
  {
    assert Render(a1) == Digits(|a1|) + [':'] + (EncodeItems(a1) + []);
    assert Render(a2) == Digits(|a2|) + [':'] + (EncodeItems(a2) + []);
    DigitsDelimited(|a1|, ':', EncodeItems(a1) + [], |a2|, ':', EncodeItems(a2) + []);
    EncodeItemsUnique(a1, [], a2, []);
  }

  /** The built-in input-hash cache key: the task's identity followed by its
      rendered arguments. */
  function InputHash(task: string, args: Arguments): string {
    EncodeText(task) + Render(args)
  }

  /** Two calls share an input-hash key only if they are calls of the same
      task with the same bound arguments. */
  lemma InputHashInjective(t1: string, a1: Arguments, t2: string, a2: Arguments)
    requires InputHash(t1, a1) == InputHash(t2, a2)
    ensures t1 == t2 && a1 == a2
  {
    EncodeTextUnique(t1, Render(a1), t2, Render(a2));
    RenderInjective(a1, a2);
  }
}
